=== FILE: README.md ===
# Triplanetary core in Dafny

A model of the integer and combinatorial core of rust-triplanetary, a
turn-based space game played on a hexagonal grid. The model covers five parts:

- **Hex geometry.** Cube coordinates, `len`, the six directions, ring and
  spiral enumeration by edge walking, and the step structure of `line`. It
  also covers the integer hex-to-pixel projection and the cube rounding.
- **Entity identity.** An id is a `u16` index. A tracker hands ids out from a
  counter that only grows.
- **Component storage.** A fixed array of `ENTITY_MAX` optional slots.
  `Positions` adds a reverse index from each cell to the set of entities
  standing on it. The model proves that the index and the position slots
  agree, and that `set` and `del` keep that agreement.
- **Per-frame systems of the game.** Drag-scroll, the thrust acceptance rule,
  swept movement with its collision scan, and the turn flag. The model also
  fixes the order in which `tick_event` runs these systems.
- **Small utilities.** The `u32` hashes and `clamp`, the span profiler, and
  the anchor offsets.

Modelling conventions:

- `i32`, `u16` and `usize` values are unbounded integers. Where the source
  would panic (an index out of bounds, a counter overflow), the model has a
  precondition or an error result.
- Rust's truncating `/` is `IntMath.Quot`.
- `f32::round` is `IntMath.RoundHalfAway`, taken over exact reals. `clamp` and the span clock also use exact reals in place of `f32` and `f64`.
- The `u32` hashes use `bv32` arithmetic.
- Mouse state, the clock and `from_pixel` become inputs to the step functions.
- The interpolation inside `line` is a parameter, `HexGrid.Interpolation`.
  `HexGrid.ExactProbe` is one instance of it, computed with exact reals.

Modules follow the source files:

| module | source |
|---|---|
| `HexGrid` | src/hex/hex.rs |
| `HexView` | src/hex/view.rs |
| `Entities` | src/entity/entity_id.rs, src/entity/entity_tracker.rs |
| `ComponentStore` | src/component/components.rs |
| `PositionIndex` | src/component/positions.rs |
| `Game` | src/main.rs |
| `MathUtil` | src/math.rs |
| `SpanCounters` | src/counters.rs |
| `Anchors` | src/anchor.rs |
| `SpriteAnchor` | src/sprite/anchor.rs |
| `IntMath`, `Wrappers` | shared helpers: truncating division and rounding, `Option`/`Result` |

## Model

| member | source | states |
|---|---|---|
| IntMath.Quot | src/hex/view.rs:33-42 | The quotient truncates toward zero: the remainder takes the dividend's sign and is smaller than the divisor. |
| IntMath.QuotOdd | src/anchor.rs:46 | Negating the dividend negates the truncating quotient, which Euclidean division does not do. |
| IntMath.RoundHalfAway | src/hex/view.rs:78-80 | The result is within one half of the input and keeps the input's sign. An exact tie goes away from zero: up for a positive input, down for a negative one. |
| IntMath.RoundIntegral | src/hex/view.rs:78-80 | Rounding an integer gives that integer back. |
| IntMath.RoundHalves | src/hex/hex.rs:63-67 | For every integer `n`, `n + 0.5` rounds to `n + 1` when `n >= 0` and to `n` when `n < 0`: every half goes away from zero. |
| HexGrid.Cube | src/hex/hex.rs:86-88 | `hex(q, r)` keeps `q` and `r` and always has cube sum zero. |
| HexGrid.CubeOfValid | src/hex/hex.rs:86-88 | Every valid hex is `hex(q, r)` of its own `q` and `r`. |
| HexGrid.Add | src/hex/hex.rs:100-110 | The cube sum of a sum of hexes is the sum of their cube sums, so zero is kept. |
| HexGrid.Sub | src/hex/hex.rs:136-146 | The difference works coordinate by coordinate and keeps a zero cube sum. |
| HexGrid.Scale | src/hex/hex.rs:184-194 | Scaling keeps a zero cube sum. Scaling by 0 gives the origin and scaling by 1 gives the hex back. |
| HexGrid.ScaleLeft | src/hex/hex.rs:196-206 | `i32 * Hex` is the same as `Hex * i32`. |
| HexGrid.AddScalar | src/hex/hex.rs:112-122 | `Hex + i32` raises the cube sum by three times the scalar. |
| HexGrid.ScalarAdd | src/hex/hex.rs:124-134 | `i32 + Hex` raises the cube sum by three times the scalar. |
| HexGrid.SubScalar | src/hex/hex.rs:148-158 | `Hex - i32` lowers the cube sum by three times the scalar. |
| HexGrid.ScalarSub | src/hex/hex.rs:160-170 | `i32 - Hex` gives three times the scalar minus the cube sum. |
| HexGrid.ScalarOpsBreakCube | src/hex/hex.rs:112-170 | Adding or subtracting a nonzero scalar, on either side, makes every valid hex invalid. |
| HexGrid.Mul | src/hex/hex.rs:172-182 | `(1, 1, 1)` is a unit of the component-wise product on either side, and the origin absorbs it. |
| HexGrid.MulBreaksCube | src/hex/hex.rs:172-182 | The component-wise product of two valid hexes can be invalid. |
| HexGrid.Len | src/hex/hex.rs:26-28 | `len` is the largest absolute coordinate, and it is zero exactly at the origin. |
| HexGrid.Direction | src/hex/hex.rs:30-40 | The table is indexed by truncating `i % 6`, so a negative index is allowed only if it is a multiple of six. Every direction has cube sum zero. |
| HexGrid.DirectionUnit | src/hex/hex.rs:30-40 | Every direction is valid and has length 1. |
| HexGrid.DirectionPeriodic | src/hex/hex.rs:39 | For non-negative `i`, directions repeat with period six. |
| HexGrid.DirectionsOpposite | src/hex/hex.rs:31-38 | Directions three apart sum to the origin. |
| HexGrid.DirectionsDistinct | src/hex/hex.rs:31-38 | The six directions are pairwise distinct, and `DirectionIndex` recovers the index. |
| HexGrid.Edge | src/hex/hex.rs:93-96 | One edge of the walk pushes `radius` cells, or none when `radius <= 0`. |
| HexGrid.Edges | src/hex/hex.rs:92-97 | The first `i` edges push `i * radius` cells. |
| HexGrid.Ring | src/hex/hex.rs:42-46 | The ring has `6 * radius` cells when `radius > 0`, and none otherwise. |
| HexGrid.CornerIsOffset | src/hex/hex.rs:91-97 | Edge `i` of the walk starts at a fixed corner offset from the center. |
| HexGrid.RingWalkCloses | src/hex/hex.rs:90-98 | After six edges the walk is back at its starting cell. |
| HexGrid.EdgeCellOnRing | src/hex/hex.rs:93-96 | Every cell pushed along an edge is at distance `radius` from the center. |
| HexGrid.RingMembers | src/hex/hex.rs:42-46 | The ring holds exactly the valid cells at distance `radius` from the center, in both directions. |
| HexGrid.RingFirst | src/hex/hex.rs:91 | The ring starts at `center + direction(4) * radius`. |
| HexGrid.WalkEdge | src/hex/hex.rs:93-96 | The inner loop appends one edge and stops `radius` steps along the direction. |
| HexGrid.AddRing | src/hex/hex.rs:90-98 | `add_ring` appends exactly the ring walk to `results`, which grow by `6 * radius` cells. |
| HexGrid.ComputeRing | src/hex/hex.rs:42-46 | `ring` returns the walk, and it contains exactly the cells at distance `radius`. |
| HexGrid.Spiral | src/hex/hex.rs:48-54 | The spiral has `3k(k+1)` cells for `k > 0`, and none otherwise. |
| HexGrid.SpiralMembers | src/hex/hex.rs:48-54 | The spiral holds exactly the valid cells at distance 1 to `k`. |
| HexGrid.SpiralExcludesCenter | src/hex/hex.rs:50-52 | The center is never in its own spiral. |
| HexGrid.SameCellIffNear | src/hex/hex.rs:26-28 | Two cells are at distance zero exactly when they are the same cell. |
| HexGrid.WithinReach | src/main.rs:429-433 | The cells within distance `k` of a center are the center itself (when `k >= 0`) plus the cells of `spiral(center, k)`. |
| HexGrid.ComputeSpiral | src/hex/hex.rs:48-54 | `spiral` concatenates the rings of radius 1 to `k` and has `3k(k+1)` cells. |
| HexGrid.Line | src/hex/hex.rs:56-76 | There are `len(a - b) + 1` steps. A step is `One` exactly when the two nudged probes agree. An `Alt` step holds two different cells. Every cell is valid. |
| HexGrid.LineCells | src/hex/hex.rs:63-73 | A `One` step is the cell of the rounded `u` probe. An `Alt` step holds the `u` cell first and the `v` cell second. |
| HexGrid.LineToSelf | src/hex/hex.rs:59-61 | A line from a cell to itself has one step. |
| HexGrid.ExactProbe | src/hex/hex.rs:60-68 | With exact arithmetic, all four nudged probes round to `a` at the first step and to `b` at the last step of a line of positive length. |
| HexGrid.NudgedEnds | src/hex/hex.rs:63-68 | At `t = 0` and `t = 1` the nudged interpolation rounds to the end points. |
| HexGrid.LastStepAtEnd | src/hex/hex.rs:60-62 | The last step of a line has `t = 1`, or `t = 0` when the line has one step. |
| HexGrid.ExactLineEndpoints | src/hex/hex.rs:56-76 | With exact interpolation, a line starts with `One(a)` and ends with `One(b)`. |
| HexGrid.ExactLineDiagonal | src/hex/hex.rs:56-76 | The line from the origin to `(1, 1, -2)` crosses a cell edge at its middle step, which is `Alt((1, 0, -1), (0, 1, -1))`. |
| HexView.ToPixel | src/hex/view.rs:30-49 | Flat `x` is `w * q` and pointy `y` is `h * r`. For a valid hex the doubled axis is the difference of the other two: flat `y` is `h * (r - s)` and pointy `x` is `w * (q - s)`. |
| HexView.ToPixelOrigin | src/hex/view.rs:30-49 | The origin is drawn at pixel (0, 0) in both layouts. |
| HexView.ToPixelAdditive | src/hex/view.rs:33-46 | The projection maps a sum of hexes to the sum of their pixels. |
| HexView.ToPixelAxes | src/hex/view.rs:35-46 | Flat `x` depends only on `q` and pointy `y` only on `r`. `s` is never read. |
| HexView.ToPixelInjective | src/hex/view.rs:33-46 | With nonzero derived steps, distinct valid hexes are drawn at distinct pixels. |
| HexView.StepTruncates | src/hex/view.rs:33 | The derived step uses truncating division: a width of -5 gives -3, not -4. |
| HexView.Round | src/hex/view.rs:76-92 | The result is valid, and every coordinate is within 1 of its input. Two of the three coordinates keep their rounded values. |
| HexView.RoundAxisChoice | src/hex/view.rs:84-90 | The recomputed axis is the one with the strictly largest rounding error. Ties fall through to `r`, then to `s`. |
| HexView.RoundIntegralHex | src/hex/view.rs:76-92 | Rounding integral coordinates gives `hex(q, r)`. |
| Entities.NewEntityId | src/entity/entity_id.rs:11-13 | `new_entity_id(i)` carries index `i`, and it is the only id that does. |
| Entities.NewEntityIdInjective | src/entity/entity_id.rs:11-19 | `new_entity_id(i).index == i`, and two ids are equal exactly when their indices are. |
| Entities.IndexById | src/entity/entity_id.rs:23-41 | Indexing a slice by an id needs `index < len`. The result is the slice's element at the id's index. |
| Entities.All | src/entity/entity_tracker.rs:26-29 | `all` has `next_index` ids, and the id at position `i` has index `i`. |
| Entities.AllComplete | src/entity/entity_tracker.rs:26-29 | An id is listed exactly when its index is below `next_index`. Indices are strictly increasing. |
| Entities.NewTracker | src/entity/entity_tracker.rs:16-18 | A new tracker lists no ids. |
| Entities.Create | src/entity/entity_tracker.rs:20-24 | `create` returns the old counter value and advances the counter by one. The `u16` increment must not overflow. |
| Entities.CreateFresh | src/entity/entity_tracker.rs:20-29 | The created id was not listed before. Afterwards it is listed last. |
| Entities.CreateMany | src/entity/entity_tracker.rs:20-24 | `n` creations return `n` ids with consecutive indices starting at the old counter. |
| Entities.CreateManyFresh | src/entity/entity_tracker.rs:11-29 | Ids from a run of creations are pairwise distinct, and none was issued before. `all` becomes the old list followed by the new ids. |
| ComponentStore.Get | src/component/components.rs:26-28 | `get` is the slot at the id's index, read through the `Index<EntityId>` impl. |
| ComponentStore.Has | src/component/components.rs:19-24 | `has` holds exactly when `get` is `Some`. |
| ComponentStore.New | src/component/components.rs:13-17 | A new store has `ENTITY_MAX` slots, and none of them is filled. |
| ComponentStore.Set | src/component/components.rs:34-36 | After `set`, `get(e)` is the value. Every other slot is unchanged. |
| ComponentStore.Del | src/component/components.rs:38-40 | After `del`, `has(e)` is false. Every other slot is unchanged. |
| ComponentStore.Modify | src/component/components.rs:30-32 | Writing through `get_mut` changes only that id's slot. |
| ComponentStore.Extensional | src/component/components.rs:6-8 | Two stores that agree on every id are equal. |
| ComponentStore.SetDelIdempotent | src/component/components.rs:34-40 | Repeating `set` with the same value, or repeating `del`, changes nothing more. |
| ComponentStore.SetDelNoChange | src/component/components.rs:34-40 | Setting the value already held, or deleting an empty slot, leaves the store unchanged. |
| ComponentStore.ModifyIsSetOrDel | src/component/components.rs:30-40 | Writing `Some(v)` through `get_mut` is `set`, and writing `None` is `del`. |
| PositionIndex.New | src/main.rs:71-76 | A new index is consistent, and no entity has a position. |
| PositionIndex.At | src/component/positions.rs:16-18 | `at` is `Some` exactly for cells that have a set. In a consistent index that set holds exactly the entities positioned on the cell, and a cell without a set has no entity on it. |
| PositionIndex.Get | src/component/positions.rs:24-26 | In a consistent index, `get(e)` is `Some(h)` exactly when `h` has a set and `e` is in it. |
| PositionIndex.Has | src/component/positions.rs:20-22 | `has` holds exactly when `get` is `Some`. |
| PositionIndex.Vacate | src/component/positions.rs:29-31 | The entity is removed from the set of its previous cell only. No cell gains or loses a set. |
| PositionIndex.Set | src/component/positions.rs:28-40 | The entity ends at `h` and is in the set of `h`. It is out of its previous cell's set. Other entities keep their positions and memberships. Consistency is preserved. |
| PositionIndex.Del | src/component/positions.rs:42-47 | The entity loses its position and is in no cell's set. Other entities are unaffected, no cell loses its set, and consistency is preserved. |
| PositionIndex.AtIffGet | src/component/positions.rs:16-26 | In a consistent index, an entity is in a cell's set exactly when its position is that cell. |
| PositionIndex.VacatedCellStaysEmpty | src/component/positions.rs:30 | When the only occupant leaves a cell, `at` returns `Some` of the empty set, not `None`. |
| PositionIndex.SetIdempotent | src/component/positions.rs:28-40 | Setting the same cell twice is setting it once. |
| PositionIndex.DelAbsent | src/component/positions.rs:42-47 | Deleting an entity that has no position changes nothing. |
| PositionIndex.SharedCell | src/component/positions.rs:28-40 | Two entities set to the same cell are both in its set. |
| Game.NewWorld | src/main.rs:121-138 | The new world has seed 0 and is on turn 1, with both flags clear. It has no player, no drag, the center at `hex(0, 0)` and no ids. The position, velocity, history, engine-power and visible-object stores are all empty. |
| Game.SimulationSystem | src/main.rs:360-367 | `simulate` becomes the old `need_simulate`, and `need_simulate` is cleared. The turn rises by one exactly when a turn was requested. Nothing else changes. |
| Game.SimulationLastsOneFrame | src/main.rs:360-367 | Without a new request, the next run clears `simulate` and does not advance the turn again. |
| Game.ThrustAccepted | src/main.rs:277-303 | Thrust is accepted only for a player with a position and a velocity, and only with a non-negative engine power. With zero power the only accepted cursor is the coast cell. |
| Game.PlayerThrustSystem | src/main.rs:276-306 | Nothing changes unless thrust is accepted. On acceptance, the player's velocity is set so that position plus velocity is the cursor cell, and a turn is requested. Only that velocity and the flag change. |
| Game.ThrustReach | src/main.rs:295-305 | Thrust accepts exactly the coast cell (when engine power is non-negative) and the cells of `spiral(coast, engine_power)`, which are the cells the velocity highlight draws. |
| Game.Report | src/main.rs:332-334 | One event per occupant of the set, each exactly once, all naming the mover. |
| Game.Occupants | src/component/positions.rs:16-18 | A cell without a set has no occupants. In a consistent index the occupants of a cell are exactly the entities positioned on it. |
| Game.ScanStep | src/main.rs:322-350 | The intended rule for one step. A `One` cell other than the start reports exactly its occupants. An `Alt(a, b)` step reports exactly the occupants of `a` when there are any, and those of `b` otherwise. Each event names the mover and appears once. |
| Game.ScanStepAsWritten | src/main.rs:322-350 | The rule as the program runs it. `One` steps agree with the intended rule. An `Alt(a, b)` step reports nothing when `a` is empty or has no set, and reports the occupants of `b` when `a` is occupied. |
| Game.StepAgreement | src/main.rs:336-350 | In a consistent index, the written and the intended step raise the same events exactly when the step is a `One` step, or an `Alt` step whose two cells are both empty. |
| Game.AltScanMissesBlocker | src/main.rs:336-350 | An entity is parked on the first cell of the diagonal line's middle step. The written scan reports nothing for that step, while the intended scan reports the entity. |
| Game.ScanStepSound | src/main.rs:322-350 | In a consistent index, every event of a step, written or intended, names the mover and an entity standing on one of the step's cells. A `One` step never reports the start cell. |
| Game.Scan | src/main.rs:321-351 | The intended scan of a whole line contains every event of each of its steps, and every event names the mover. |
| Game.ScanFromSteps | src/main.rs:321-351 | The intended scan holds nothing else: every one of its events is an event of one of the line's steps. |
| Game.ScanAsWritten | src/main.rs:321-351 | The written scan of a whole line contains every event of each of its written steps, and every event names the mover. |
| Game.ScanAsWrittenFromSteps | src/main.rs:321-351 | The written scan holds nothing else: every one of its events is an event of one of the line's written steps. |
| Game.ScanAgreesOffEdges | src/main.rs:321-351 | When every `Alt` step of a line has both cells empty, the written scan raises exactly the intended events. |
| Game.ScanSound | src/main.rs:321-351 | Every event of a scan, written or intended, names the mover and an entity standing on some cell of the line. |
| Game.MoveEntity | src/main.rs:312-356 | An entity with a position and a velocity ends at start plus velocity, and, when it has a history, one entry (the end cell) is appended to it. Its log is the written scan of the line from start to end; without both components nothing is logged. Other entities are untouched, consistency is preserved, and only positions and histories change. |
| Game.MoveAll | src/main.rs:311-357 | The loop keeps consistency and changes only positions and histories. Every logged event, raised by the written scan, names an entity of the loop. |
| Game.MoveAllEffect | src/main.rs:311-357 | With distinct ids, each listed entity reaches its own target and, when it has a history, gets its one history entry. Unlisted entities are untouched. |
| Game.VelocityPositionSystem | src/main.rs:308-358 | Nothing happens unless `simulate` is set. Movement keeps consistency, and every event of the written scan names a created entity. |
| Game.VelocityEffect | src/main.rs:308-358 | In a simulated frame every created entity with a position and a velocity moves by its velocity and, when it has a history, gains one history entry. Every other entity stays put. |
| Game.DragScrollSystem | src/main.rs:258-274 | Nothing changes mid-simulation. A press stores cursor minus center. While dragging, center plus the stored offset is the cursor, and the offset is kept until release. The drag ends exactly on release. Only `center_hex` and `drag` change. |
| Game.DragFollowsCursor | src/main.rs:258-274 | Holding the cursor still after a press does not scroll. Moving it by `d` moves the center by `d`. |
| Game.Tick | src/main.rs:490-503 | A frame keeps the stores sized and the index consistent. The tracker and the player are unchanged, and the turn advances by at most one. Every frame needs all created ids below `ENTITY_MAX`, because the drawing systems read their stores on every frame. |
| Game.ThrustMovesNextFrame | src/main.rs:490-503 | Accepted thrust only raises the turn flag on its own frame. On the next frame the player moves onto the cell that was under the cursor, and the simulated frame ends. |
| MathUtil.HashU32 | src/math.rs:1-9 | `hash_u32(0) == 0`. |
| MathUtil.Combine | src/math.rs:13-16 | Xoring the result with `y` gives back the wrapped sum `h + 0x9e3779b9 + (y << 6) + (y >> 2)`. |
| MathUtil.Hash2U32 | src/math.rs:11-17 | `hash2_u32(x, y)` is the combine step applied to `hash_u32(x)`, so xoring it with `y` gives back the wrapped sum `hash_u32(x) + 0x9e3779b9 + (y << 6) + (y >> 2)`. With `x = 0` the first hash contributes nothing. |
| MathUtil.HashValues | src/math.rs:1-17 | The values of both hashes at a few inputs, with 32-bit wrap-around. |
| MathUtil.Clamp | src/math.rs:34-42 | Below `a` the result is `a`, and above `b` (but not below `a`) it is `b`. With `a <= b` it lies in `[a, b]`. It equals `x` exactly when `a <= x <= b`. |
| MathUtil.ClampIdempotent | src/math.rs:34-42 | Clamping twice to the same well-formed range is clamping once. |
| MathUtil.ClampMonotone | src/math.rs:34-42 | Clamping is monotone in `x`. |
| MathUtil.ClampInverted | src/math.rs:34-42 | With `a > b`, the result is `a` below `a` and `b` everywhere else. |
| SpanCounters.Empty | src/counters.rs:9-15 | `Counters::default()` has no spans, nothing open, zero width and frame start, and so is balanced. |
| SpanCounters.CountStarted | src/counters.rs:4-7 | The number of running spans is at most the number of spans. |
| SpanCounters.Begin | src/counters.rs:18-24 | `begin` returns the old span count and appends one running span at depth `open_spans`. It increments `open_spans` and raises `max_span_name_size` to cover the name's length in UTF-8 bytes. |
| SpanCounters.End | src/counters.rs:26-38 | `end` fails for an index with no span, and for a span that already ended. It succeeds exactly for a running span while `open_spans > 0`. Only that span changes, and `open_spans` drops by one. |
| SpanCounters.Reset | src/counters.rs:40-45 | `reset` empties the spans and zeroes the counts. The frame start becomes the current time. |
| SpanCounters.CountStartedEnd | src/counters.rs:36 | Ending one running span lowers the running count by one. |
| SpanCounters.CountStartedPositive | src/counters.rs:30-33 | A running span makes the running count positive. |
| SpanCounters.OperationsBalanced | src/counters.rs:18-45 | `begin`, a successful `end` and `reset` keep `open_spans` equal to the number of running spans. |
| SpanCounters.EndNeverUnderflows | src/counters.rs:36-37 | With the counts balanced, the decrement never underflows, so ending a running span always succeeds. |
| SpanCounters.NestedDepth | src/counters.rs:19-21 | A span begun inside an open span is one level deeper. |
| Anchors.Offset | src/anchor.rs:43-55 | Each offset component is 0, the size, or half the size truncated toward zero: for a non-negative size `w - 2x` is 0 or 1, for a negative one it is 0 or -1. |
| Anchors.OffsetCorners | src/anchor.rs:28-55 | `LEFT_TOP` gives (0, 0) and `RIGHT_BOTTOM` gives (w, h). |
| Anchors.OffsetSeparable | src/anchor.rs:44-53 | `x` depends only on the horizontal variant and `w`. `y` depends only on the vertical variant and `h`. |
| Anchors.OffsetOdd | src/anchor.rs:46-51 | Negating the size negates the offset, because the halves truncate toward zero. |
| Anchors.OffsetTruncates | src/anchor.rs:46-51 | A size of (-5, -7) gives a middle-center offset of (-2, -3), where Euclidean division would give (-3, -4). |
| SpriteAnchor.AnchorOffset | src/sprite/anchor.rs:40-52 | For each variant the component is 0, the size, or half the size truncated toward zero, with the same bounds on `w - 2x` as `Anchor::offset`. |
| SpriteAnchor.AgreesWithScreenAnchor | src/sprite/anchor.rs:23-52 | `anchor_offset` agrees with `Anchor::offset` for all nine variants, and the constants correspond. |
| SpriteAnchor.NegatedPivot | src/sprite/sprite.rs:19 | The pivot of a sprite, computed from the negated scaled size, is the negation of the offset of the positive size. |

## Left out

- Floating-point interpolation in `line` (src/hex/hex.rs:60-68). The model takes it as the parameter `HexGrid.Interpolation`. Its exact-real instance `HexGrid.ExactProbe` ignores `f32` rounding error.
- `from_pixel` (src/hex/view.rs:51-73) needs `sqrt(3)`. The model has only the `round` it ends with, and the cell under the cursor is an input to each frame.
- `hash_f32`, `hash2_f32`, `lerp`, `remap`, `hash_vec2`, `value_noise`, `fbm`, `generate_asteroid` and `create_world` are floating-point noise used for world generation.
- MathUtil.Clamp: `clamp` and the span clock of `SpanCounters` are taken over exact reals, not `f32` and `f64`. NaN, infinities and rounding are not modelled. With a NaN `x` the source returns NaN, which lies in no `[a, b]`.
- MathUtil.Hash2U32: its contract names the combine step on `hash_u32(x)` instead of spelling out the wrapped sum for every `x`, because bit-vector goals that also see the multiplications of `hash_u32` exceed the solver budget. `MathUtil.Combine` states the sum.
- MathUtil.HashU32: states only `hash_u32(0) == 0` and concrete values, not injectivity. Each step of the hash can be inverted, but the bit-vector proofs of those inverses exceed the solver budget used here.
- src/main.rs carries its own copies of `hash_u32` and `hash2_u32` (src/main.rs:141-157), the same code as src/math.rs:1-17, which `MathUtil` covers. Its `hash_f32` and `hash2_f32` differ from the ones in src/math.rs, and both are floating-point noise that is left out. Its in-file `Components` (src/main.rs:31-63) has `new`, `has`, `get`, `get_mut` and `set`, and its `Positions` (src/main.rs:65-102) has `new`, `at`, `has`, `get` and `set`. Those operations are the same code as in src/component, and `ComponentStore` and `PositionIndex` cover them. `PositionIndex.New` stands in for the in-file `Positions::new`. Neither in-file store has `del`.
- The drawing systems (`background_hex_grid_system`, the highlight systems, `visible_object_system`, `history_trail_system`) only draw. `Game.ThrustReach` states the one fact about drawing that matters here: thrust accepts the cells the velocity highlight draws, `spiral(coast, engine_power)`, plus the coast cell itself when the power is not negative. The spiral leaves that cell out.
- The `main` loop, `window_conf`, `window_offset`, mouse polling, the sprite draw queue and asset loading are I/O. Mouse state is an input to `Game.Tick`.
- `collision_event` only logs, so the model records each call as an element of a multiset and nothing else.
- `Counters::stats` formats text. `get_time` is the `now` parameter.
- Machine overflow of `i32` arithmetic in hex math and projection is not modelled, since integers are unbounded. The `u16` counter overflow in `create` and the `ENTITY_MAX` bound are modelled as preconditions.
- Id recycling, navigation (`move_to`), visibility, world streaming, gravity deflection and the history cap do not exist in this code. They are not modelled.
- `Game.VelocityPositionSystem` requires every created id to be below `ENTITY_MAX` in a simulated frame, since only then does it index by those ids. `Game.Tick` requires it on every frame, because `visible_object_system` and `history_trail_system` read the stores of every created id on every frame. Above that bound the source indexes the component arrays out of bounds and panics.

## Findings

| source | as written | input that shows it | evidently intended | confidence | as-written member | corrected member |
|---|---|---|---|---|---|---|
| src/main.rs:336-350 | In the `Alt(a, b)` step of the collision scan, an occupied `a` makes the scan report the occupants of `b` instead. A missing set at `a` skips the step, and an empty set at `a` reports nothing. | An entity moves from `hex(0, 0)` to `(1, 1, -2)` with exact interpolation. The middle step of its line is `Alt((1, 0, -1), (0, 1, -1))`. One asteroid is parked on `(1, 0, -1)` and nothing is on `(0, 1, -1)`. The written scan reports no collision for that step. | Check the first cell, and the second only when the first is empty. The asteroid on `(1, 0, -1)` is reported. | medium; not executed | Game.ScanStepAsWritten (with Game.ScanAsWritten, used by Game.MoveEntity, and Game.AltScanMissesBlocker) | Game.ScanStep (with Game.Scan; related to the written rule by Game.StepAgreement and Game.ScanAgreesOffEdges) |

Movement keeps the program's behaviour: `Game.MoveEntity` logs the written scan. The intended rule is stated beside it, and `Game.StepAgreement` and `Game.ScanAgreesOffEdges` say exactly where the two differ.

=== FILE: anchor.dfy ===
/** Screen anchors of src/anchor.rs: a horizontal and a vertical choice, and
    the pixel offset of that anchor inside a `w` by `h` box. The halves use
    Rust's truncating `i32` division. */
module Anchors {
  import opened IntMath

  datatype Horizontal = Left | Middle | Right

  datatype Vertical = Top | Center | Bottom

  datatype Anchor = Anchor(h: Horizontal, v: Vertical)

  /** `IVec2`. */
  datatype IVec2 = IVec2(x: int, y: int)

  const LEFT_TOP: Anchor := Anchor(Left, Top)
  const MIDDLE_TOP: Anchor := Anchor(Middle, Top)
  const RIGHT_TOP: Anchor := Anchor(Right, Top)
  const LEFT_CENTER: Anchor := Anchor(Left, Center)
  const MIDDLE_CENTER: Anchor := Anchor(Middle, Center)
  const RIGHT_CENTER: Anchor := Anchor(Right, Center)
  const LEFT_BOTTOM: Anchor := Anchor(Left, Bottom)
  const MIDDLE_BOTTOM: Anchor := Anchor(Middle, Bottom)
  const RIGHT_BOTTOM: Anchor := Anchor(Right, Bottom)

  /** `n` lies on the closed segment from 0 to `bound`, whatever the sign of
      `bound`. */
  predicate Between(n: int, bound: int)
  {
    if bound >= 0 then 0 <= n <= bound else bound <= n <= 0
  }

  /** `Anchor::offset`. Every anchor lands inside the box, corners included;
      the middle and center anchors take the half of the size truncated
      toward zero. */
  function Offset(a: Anchor, w: int, h: int): (p: IVec2)
    ensures Between(p.x, w) && Between(p.y, h)
    ensures a.h == Left ==> p.x == 0
    ensures a.h == Right ==> p.x == w
    ensures a.h == Middle ==> (w >= 0 ==> 0 <= w - 2 * p.x <= 1) && (w < 0 ==> -1 <= w - 2 * p.x <= 0)
    ensures a.v == Top ==> p.y == 0
    ensures a.v == Bottom ==> p.y == h
    ensures a.v == Center ==> (h >= 0 ==> 0 <= h - 2 * p.y <= 1) && (h < 0 ==> -1 <= h - 2 * p.y <= 0)
  {
    var x := match a.h
      case Left => 0
      case Middle => Quot(w, 2)
      case Right => w;
    var y := match a.v
      case Top => 0
      case Center => Quot(h, 2)
      case Bottom => h;
    IVec2(x, y)
  }

  /** The top-left anchor is the origin and the bottom-right one the far
      corner. */
  lemma OffsetCorners(w: int, h: int)
    ensures Offset(LEFT_TOP, w, h) == IVec2(0, 0)
    ensures Offset(RIGHT_BOTTOM, w, h) == IVec2(w, h)
  {
  }

  /** The x offset depends only on the horizontal choice and the width, the y
      offset only on the vertical choice and the height. */
  lemma OffsetSeparable(a: Anchor, b: Anchor, w: int, h: int, w2: int, h2: int)
    ensures a.h == b.h ==> Offset(a, w, h).x == Offset(b, w, h2).x
    ensures a.v == b.v ==> Offset(a, w, h).y == Offset(b, w2, h).y
  {
  }

  /** Negating the box negates every offset: truncating halves are symmetric
      about zero. */
  lemma OffsetOdd(a: Anchor, w: int, h: int)
    ensures Offset(a, -w, -h) == IVec2(-Offset(a, w, h).x, -Offset(a, w, h).y)
  {
    QuotOdd(w, 2);
    QuotOdd(h, 2);
  }

  /** For an odd negative size the truncating half differs from the
      Euclidean one, which would give (-3, -4). */
  lemma OffsetTruncates()
    ensures Offset(MIDDLE_CENTER, -5, -7) == IVec2(-2, -3)
  {
  }
}

=== FILE: components.dfy ===
/** `Components<T>` of src/component/components.rs: one optional slot per
    entity index in a fixed array of `ENTITY_MAX` slots. Every operation
    indexes that array by the id, and so panics for an id at or above
    `ENTITY_MAX`; the model states that as a precondition. */
module ComponentStore {
  import opened Wrappers
  import opened Entities

  datatype Components<T> = Components(byId: seq<Option<T>>)

  /** The array always has `ENTITY_MAX` slots. */
  predicate Sized<T>(c: Components<T>)
  {
    |c.byId| == ENTITY_MAX
  }

  /** `Components::get`: the slot the id's index selects, through the
      `Index<EntityId>` impl. */
  function Get<T>(c: Components<T>, e: EntityId): (r: Option<T>)
    requires Sized(c) && InRange(e)
    ensures r == c.byId[e.index]
  {
    IndexById(c.byId, e)
  }

  /** `Components::has`: the slot holds a component. */
  function Has<T>(c: Components<T>, e: EntityId): (b: bool)
    requires Sized(c) && InRange(e)
    ensures b <==> Get(c, e).Some?
  {
    match c.byId[e.index]
    case Some(_) => true
    case None => false
  }

  /** `Components::new`: every slot empty. */
  function New<T>(): (c: Components<T>)
    ensures Sized(c)
    ensures forall e: EntityId :: InRange(e) ==> !Has(c, e)
  {
    Components(seq(ENTITY_MAX, _ => None))
  }

  /** `Components::set`. */
  function Set<T>(c: Components<T>, e: EntityId, v: T): (r: Components<T>)
    requires Sized(c) && InRange(e)
    ensures Sized(r)
    ensures Get(r, e) == Some(v)
    ensures forall o: EntityId :: InRange(o) && o != e ==> Get(r, o) == Get(c, o)
  {
    Components(c.byId[e.index := Some(v)])
  }

  /** `Components::del`. */
  function Del<T>(c: Components<T>, e: EntityId): (r: Components<T>)
    requires Sized(c) && InRange(e)
    ensures Sized(r)
    ensures !Has(r, e)
    ensures forall o: EntityId :: InRange(o) && o != e ==> Get(r, o) == Get(c, o)
  {
    Components(c.byId[e.index := None])
  }

  /** `Components::get_mut`: the caller receives the slot, may rewrite it, and
      the store keeps whatever the caller left there. `edit` is that rewrite. */
  function Modify<T>(c: Components<T>, e: EntityId, edit: Option<T> -> Option<T>): (r: Components<T>)
    requires Sized(c) && InRange(e)
    ensures Sized(r)
    ensures Get(r, e) == edit(Get(c, e))
    ensures forall o: EntityId :: InRange(o) && o != e ==> Get(r, o) == Get(c, o)
  {
    Components(c.byId[e.index := edit(c.byId[e.index])])
  }

  /** Two well-sized stores that agree on every id in range are equal. */
  lemma Extensional<T>(a: Components<T>, b: Components<T>)
    requires Sized(a) && Sized(b)
    requires forall o: EntityId :: InRange(o) ==> Get(a, o) == Get(b, o)
    ensures a == b
  {
    forall i | 0 <= i < ENTITY_MAX
      ensures a.byId[i] == b.byId[i]
    {
      assert Get(a, EntityId(i)) == Get(b, EntityId(i));
    }
  }

  /** Setting the same value twice is setting it once; deleting twice is
      deleting once. */
  lemma SetDelIdempotent<T>(c: Components<T>, e: EntityId, v: T)
    requires Sized(c) && InRange(e)
    ensures Set(Set(c, e, v), e, v) == Set(c, e, v)
    ensures Del(Del(c, e), e) == Del(c, e)
  {
    Extensional(Set(Set(c, e, v), e, v), Set(c, e, v));
    Extensional(Del(Del(c, e), e), Del(c, e));
  }

  /** Setting the component an entity already has, or deleting one it does
      not have, leaves the store as it was. */
  lemma SetDelNoChange<T>(c: Components<T>, e: EntityId, v: T)
    requires Sized(c) && InRange(e)
    ensures Get(c, e) == Some(v) ==> Set(c, e, v) == c
    ensures !Has(c, e) ==> Del(c, e) == c
  {
    if Get(c, e) == Some(v) {
      Extensional(Set(c, e, v), c);
    }
    if !Has(c, e) {
      Extensional(Del(c, e), c);
    }
  }

  /** Writing a slot through `get_mut` with a constant rewrite is `set` or
      `del`. */
  lemma ModifyIsSetOrDel<T>(c: Components<T>, e: EntityId, v: T)
    requires Sized(c) && InRange(e)
    ensures Modify(c, e, _ => Some(v)) == Set(c, e, v)
    ensures Modify(c, e, _ => None) == Del(c, e)
  {
    Extensional(Modify(c, e, _ => Some(v)), Set(c, e, v));
    Extensional(Modify(c, e, _ => None), Del(c, e));
  }
}

=== FILE: counters.dfy ===
/** The span profiler of src/counters.rs. Spans are begun and ended by index;
    each records how many spans were open when it began. The clock is an
    input: every operation that reads `get_time` takes the time as `now`. */
module SpanCounters {
  import opened Wrappers
  import opened IntMath

  datatype Span = Started(start: real) | Ended(elapsed: real)

  /** A span name as the UTF-8 bytes of its `String`: `str::len`, and so
      `max_span_name_size`, counts bytes, not characters. */
  type Utf8 = seq<bv8>

  /** One entry of `spans`: (depth, name, span). */
  datatype SpanRecord = SpanRecord(depth: nat, name: Utf8, span: Span)

  datatype Counters = Counters(spans: seq<SpanRecord>, frameStart: real, openSpans: nat, maxSpanNameSize: nat)

  /** Why `end` panics: the index names no span, the span was already ended,
      or the `usize` decrement of the open count would go below zero. */
  datatype EndError = NoSuchSpan | EndedTwice | Underflow

  /** `Counters::default()`: no spans, nothing open, and so balanced. */
  function Empty(): (c: Counters)
    ensures c.spans == [] && c.openSpans == 0 && c.maxSpanNameSize == 0 && c.frameStart == 0.0
    ensures Balanced(c)
  {
    Counters([], 0.0, 0, 0)
  }

  /** The number of spans still running. */
  function CountStarted(spans: seq<SpanRecord>): (n: nat)
    ensures n <= |spans|
  {
    if spans == [] then 0
    else CountStarted(spans[..|spans| - 1]) + (if spans[|spans| - 1].span.Started? then 1 else 0)
  }

  /** The open count matches the spans that are still running. */
  predicate Balanced(c: Counters)
  {
    c.openSpans == CountStarted(c.spans)
  }

  /** `Counters::begin`: the widest name is measured in bytes. */
  function Begin(c: Counters, name: Utf8, now: real): (res: (Counters, nat))
    ensures res.1 == |c.spans| && |res.0.spans| == |c.spans| + 1
    ensures res.0.spans[..|c.spans|] == c.spans
    ensures res.0.spans[res.1] == SpanRecord(c.openSpans, name, Started(now))
    ensures res.0.openSpans == c.openSpans + 1
    ensures res.0.maxSpanNameSize >= |name| && res.0.maxSpanNameSize >= c.maxSpanNameSize
    ensures res.0.maxSpanNameSize == |name| || res.0.maxSpanNameSize == c.maxSpanNameSize
    ensures res.0.frameStart == c.frameStart
  {
    var index := |c.spans|;
    var spans := c.spans + [SpanRecord(c.openSpans, name, Started(now))];
    (Counters(spans, c.frameStart, c.openSpans + 1, Max(c.maxSpanNameSize, |name|)), index)
  }

  /** `Counters::end`: the elapsed time is `now` minus the span's start. */
  function End(c: Counters, index: nat, now: real): (res: Result<Counters, EndError>)
    ensures index >= |c.spans| ==> res == Failure(NoSuchSpan)
    ensures index < |c.spans| && c.spans[index].span.Ended? ==> res == Failure(EndedTwice)
    ensures res.Success? <==> index < |c.spans| && c.spans[index].span.Started? && c.openSpans > 0
    ensures res.Success? ==>
      && |res.value.spans| == |c.spans|
      && res.value.spans[index] == c.spans[index].(span := Ended(now - c.spans[index].span.start))
      && (forall j :: 0 <= j < |c.spans| && j != index ==> res.value.spans[j] == c.spans[j])
      && res.value.openSpans == c.openSpans - 1
      && res.value.(spans := c.spans, openSpans := c.openSpans) == c
  {
    if index >= |c.spans| then Failure(NoSuchSpan)
    else match c.spans[index].span
      case Ended(_) => Failure(EndedTwice)
      case Started(start) =>
        if c.openSpans == 0 then Failure(Underflow)
        else
          var record := c.spans[index].(span := Ended(now - start));
          Success(c.(spans := c.spans[index := record], openSpans := c.openSpans - 1))
  }

  /** `Counters::reset`. */
  function Reset(c: Counters, now: real): (r: Counters)
    ensures r.spans == [] && r.openSpans == 0 && r.maxSpanNameSize == 0 && r.frameStart == now
    ensures Balanced(r)
  {
    Counters([], now, 0, 0)
  }

  // ---------------------------------------------------------------------------
  // The open count is the number of running spans

  lemma CountStartedAppend(spans: seq<SpanRecord>, x: SpanRecord)
    ensures CountStarted(spans + [x]) == CountStarted(spans) + (if x.span.Started? then 1 else 0)
  {
    assert (spans + [x])[..|spans|] == spans;
  }

  /** Replacing a running span by an ended one lowers the count by one. */
  lemma {:induction false} CountStartedEnd(spans: seq<SpanRecord>, i: nat, x: SpanRecord)
    requires i < |spans| && spans[i].span.Started? && x.span.Ended?
    ensures CountStarted(spans[i := x]) == CountStarted(spans) - 1
    decreases |spans|
  {
    var last := |spans| - 1;
    var updated := spans[i := x];
    assert updated[..last] == if i == last then spans[..last] else spans[..last][i := x];
    if i < last {
      CountStartedEnd(spans[..last], i, x);
    }
  }

  /** A running span contributes to the count, so the count is positive. */
  lemma {:induction false} CountStartedPositive(spans: seq<SpanRecord>, i: nat)
    requires i < |spans| && spans[i].span.Started?
    ensures CountStarted(spans) > 0
    decreases |spans|
  {
    var last := |spans| - 1;
    if i < last {
      CountStartedPositive(spans[..last], i);
    }
  }

  /** `begin`, a successful `end` and `reset` all keep the open count equal
      to the number of running spans. */
  lemma OperationsBalanced(c: Counters, name: Utf8, index: nat, now: real)
    requires Balanced(c)
    ensures Balanced(Begin(c, name, now).0)
    ensures End(c, index, now).Success? ==> Balanced(End(c, index, now).value)
    ensures Balanced(Empty())
  {
    CountStartedAppend(c.spans, SpanRecord(c.openSpans, name, Started(now)));
    if End(c, index, now).Success? {
      var record := c.spans[index].(span := Ended(now - c.spans[index].span.start));
      CountStartedEnd(c.spans, index, record);
    }
  }

  /** With a balanced count the decrement in `end` never underflows: ending a
      running span always succeeds. */
  lemma EndNeverUnderflows(c: Counters, index: nat, now: real)
    requires Balanced(c)
    ensures End(c, index, now) != Failure(Underflow)
    ensures index < |c.spans| && c.spans[index].span.Started? ==> End(c, index, now).Success?
  {
    if index < |c.spans| && c.spans[index].span.Started? {
      CountStartedPositive(c.spans, index);
    }
  }

  /** Nested begins record their nesting depth: a span begun inside another
      one that is still open sits one level deeper. */
  lemma NestedDepth(c: Counters, outer: Utf8, inner: Utf8, t0: real, t1: real)
    ensures var (c1, i) := Begin(c, outer, t0);
      var (c2, j) := Begin(c1, inner, t1);
      j == i + 1 && c2.spans[j].depth == c2.spans[i].depth + 1
  {
  }
}

=== FILE: entities.dfy ===
/** Entity identity, after src/entity/entity_id.rs and src/entity/entity_tracker.rs:
    an id is a `u16` index, and the tracker hands out indices from a counter
    that only ever grows. Nothing removes or recycles an id. */
module Entities {

  /** Component stores are arrays of this many slots; ids at or above it
      cannot be used as component keys. */
  const ENTITY_MAX: nat := 4096

  const U16_LIMIT: nat := 0x1_0000

  type U16 = i: int | 0 <= i < U16_LIMIT

  /** `EntityId`. Equality compares the index alone, which for a one-field
      record is structural equality. */
  datatype EntityId = EntityId(index: U16)

  /** `new_entity_id`: the id carrying `index`, and the only one that does. */
  function NewEntityId(index: U16): (e: EntityId)
    ensures e.index == index
    ensures forall o: EntityId :: o == e <==> o.index == index
  {
    EntityId(index)
  }

  /** `new_entity_id` is injective, and two ids are equal exactly when their
      indices are. */
  lemma NewEntityIdInjective(i: U16, j: U16)
    ensures NewEntityId(i).index == i
    ensures NewEntityId(i) == NewEntityId(j) <==> i == j
  {
  }

  /** Ids usable as component keys. */
  predicate InRange(e: EntityId)
  {
    e.index < ENTITY_MAX
  }

  /** `slice[entity_id]`: indexing by `index as usize`, which panics unless the
      index is within the slice. */
  function IndexById<T>(s: seq<T>, e: EntityId): (x: T)
    requires e.index < |s|
    ensures x == s[e.index] && x in s
  {
    s[e.index]
  }

  // ---------------------------------------------------------------------------
  // The tracker

  /** `EntityTracker`: the next index to hand out. */
  datatype Tracker = Tracker(nextIndex: U16)

  /** `EntityTracker::all`: the ids `0 .. next_index` in increasing order. */
  function All(t: Tracker): (ids: seq<EntityId>)
    ensures |ids| == t.nextIndex
    ensures forall i :: 0 <= i < |ids| ==> ids[i].index == i
  {
    seq(t.nextIndex, i requires 0 <= i < t.nextIndex => EntityId(i))
  }

  /** `all` lists every issued id exactly once, in increasing order, and no
      other id. */
  lemma AllComplete(t: Tracker, e: EntityId)
    ensures e in All(t) <==> e.index < t.nextIndex
    ensures forall i, j :: 0 <= i < j < |All(t)| ==> All(t)[i].index < All(t)[j].index
  {
    if e.index < t.nextIndex {
      assert All(t)[e.index] == e;
    }
  }

  /** `EntityTracker::new`. */
  function NewTracker(): (t: Tracker)
    ensures All(t) == []
  {
    Tracker(0)
  }

  /** `EntityTracker::create`: returns the current index and advances the
      counter. The `u16` increment overflows when the counter is at its
      maximum, which the precondition excludes. */
  function Create(t: Tracker): (res: (Tracker, EntityId))
    requires t.nextIndex < U16_LIMIT - 1
    ensures res.1.index == t.nextIndex
    ensures res.0.nextIndex == t.nextIndex + 1
  {
    var index := t.nextIndex;
    (Tracker(index + 1), NewEntityId(index))
  }

  /** The id `create` returns was not listed by `all` before, and is listed
      last afterwards. */
  lemma CreateFresh(t: Tracker)
    requires t.nextIndex < U16_LIMIT - 1
    ensures Create(t).1 !in All(t)
    ensures All(Create(t).0) == All(t) + [Create(t).1]
  {
    AllComplete(t, Create(t).1);
  }

  /** `n` calls of `create` in a row, returning the ids in the order issued. */
  function CreateMany(t: Tracker, n: nat): (res: (Tracker, seq<EntityId>))
    requires t.nextIndex + n < U16_LIMIT
    ensures |res.1| == n
    ensures res.0.nextIndex == t.nextIndex + n
    ensures forall i :: 0 <= i < n ==> res.1[i].index == t.nextIndex + i
    decreases n
  {
    if n == 0 then (t, [])
    else
      var (t1, e) := Create(t);
      var (t2, rest) := CreateMany(t1, n - 1);
      (t2, [e] + rest)
  }

  /** Any run of `create` calls returns pairwise distinct ids, none of which
      was issued before the run, and afterwards `all` lists the old ids
      followed by the new ones. */
  lemma CreateManyFresh(t: Tracker, n: nat)
    requires t.nextIndex + n < U16_LIMIT
    ensures var (t2, ids) := CreateMany(t, n);
      && All(t2) == All(t) + ids
      && (forall i, j :: 0 <= i < j < |ids| ==> ids[i] != ids[j])
      && (forall i :: 0 <= i < |ids| ==> ids[i] !in All(t))
  {
    var (t2, ids) := CreateMany(t, n);
    forall i | 0 <= i < |ids|
      ensures ids[i] !in All(t)
    {
      AllComplete(t, ids[i]);
    }
  }
}

=== FILE: game.dfy ===
/** The turn and frame logic of src/main.rs: the `World` record, the control
    systems (drag-scroll, player thrust), the simulation systems (swept
    movement with its collision scan, the turn flag), and the order in which
    `tick_event` runs them. Mouse polling and `from_pixel` are inputs: each
    frame receives the cell under the cursor and the three button edges. */
module Game {
  import opened Wrappers
  import opened Entities
  import opened HexGrid
  import CS = ComponentStore
  import PI = PositionIndex

  datatype ObjectType = Ship | Torpedo | Asteroid

  datatype Color = Color(r: real, g: real, b: real, a: real)

  datatype VisibleObject = VisibleObject(kind: ObjectType, color: Color)

  datatype World = World(
    seed: bv32,
    entities: Tracker,
    player: Option<EntityId>,
    position: PI.Positions,
    velocity: CS.Components<Hex>,
    history: CS.Components<seq<Hex>>,
    enginePower: CS.Components<int>,
    visibleObject: CS.Components<VisibleObject>,
    centerHex: Hex,
    drag: Option<Hex>,
    simulate: bool,
    needSimulate: bool,
    turn: int)

  /** Every store has its `ENTITY_MAX` slots and the player id, if any, can
      index them: what the systems need in order not to panic. */
  predicate Stores(w: World)
  {
    && CS.Sized(w.position.components)
    && CS.Sized(w.velocity)
    && CS.Sized(w.history)
    && CS.Sized(w.enginePower)
    && CS.Sized(w.visibleObject)
    && (w.player.Some? ==> InRange(w.player.value))
  }

  /** `Stores` plus an agreeing position index. */
  ghost predicate WellFormed(w: World)
  {
    Stores(w) && PI.Consistent(w.position)
  }

  /** `World::new`. */
  function NewWorld(): (w: World)
    ensures WellFormed(w)
    ensures w.turn == 1 && !w.simulate && !w.needSimulate
    ensures w.player == None && w.drag == None && w.centerHex == Cube(0, 0)
    ensures All(w.entities) == []
    ensures w.seed == 0
    ensures forall e: EntityId :: InRange(e) ==>
      && !PI.Has(w.position, e) && !CS.Has(w.velocity, e) && !CS.Has(w.history, e)
      && !CS.Has(w.enginePower, e) && !CS.Has(w.visibleObject, e)
  {
    World(0, NewTracker(), None, PI.New(), CS.New(), CS.New(), CS.New(), CS.New(),
          Cube(0, 0), None, false, false, 1)
  }

  // ---------------------------------------------------------------------------
  // simulation_system

  /** `simulation_system`: a requested turn starts on this frame's end and
      lasts exactly one frame. */
  function SimulationSystem(w: World): (r: World)
    ensures r.simulate == w.needSimulate
    ensures !r.needSimulate
    ensures r.turn == if w.needSimulate then w.turn + 1 else w.turn
    ensures r.(simulate := w.simulate, needSimulate := w.needSimulate, turn := w.turn) == w
  {
    if w.needSimulate then w.(simulate := true, needSimulate := false, turn := w.turn + 1)
    else w.(simulate := false)
  }

  /** Without a new request, a second run ends the simulated frame and does
      not advance the turn again. */
  lemma SimulationLastsOneFrame(w: World)
    ensures var r := SimulationSystem(SimulationSystem(w));
      !r.simulate && !r.needSimulate && r.turn == SimulationSystem(w).turn
  {
  }

  // ---------------------------------------------------------------------------
  // player_thrust_system

  /** A missing engine counts as power zero. */
  function EnginePower(w: World, p: EntityId): int
    requires Stores(w) && InRange(p)
  {
    match CS.Get(w.enginePower, p)
    case Some(x) => x
    case None => 0
  }

  /** When `player_thrust_system` accepts: not mid-simulation, the left button
      was released, the player exists with a position and a velocity, and the
      cursor is within engine power of where the player would coast to. */
  predicate ThrustAccepted(w: World, released: bool, cursor: Hex)
    requires Stores(w)
    ensures ThrustAccepted(w, released, cursor) ==>
      && w.player.Some?
      && PI.Get(w.position, w.player.value).Some? && CS.Get(w.velocity, w.player.value).Some?
      && EnginePower(w, w.player.value) >= 0
    ensures ThrustAccepted(w, released, cursor) && EnginePower(w, w.player.value) == 0 ==>
      cursor == Add(PI.Get(w.position, w.player.value).value, CS.Get(w.velocity, w.player.value).value)
  {
    && !w.simulate
    && released
    && w.player.Some?
    && PI.Has(w.position, w.player.value)
    && CS.Has(w.velocity, w.player.value)
    && var p := w.player.value;
       var coast := Add(PI.Get(w.position, p).value, CS.Get(w.velocity, p).value);
       Len(Sub(cursor, coast)) <= EnginePower(w, p)
  }

  /** `player_thrust_system`. On acceptance the velocity is set so that the
      player's next move ends on the cursor, and a turn is requested;
      otherwise nothing changes. */
  function PlayerThrustSystem(w: World, released: bool, cursor: Hex): (r: World)
    requires Stores(w)
    ensures Stores(r)
    ensures !ThrustAccepted(w, released, cursor) ==> r == w
    ensures ThrustAccepted(w, released, cursor) ==>
      && r.needSimulate
      && CS.Get(r.velocity, w.player.value).Some?
      && Add(PI.Get(w.position, w.player.value).value, CS.Get(r.velocity, w.player.value).value) == cursor
      && (forall o: EntityId :: InRange(o) && o != w.player.value ==> CS.Get(r.velocity, o) == CS.Get(w.velocity, o))
      && r.(velocity := w.velocity, needSimulate := w.needSimulate) == w
  {
    if w.simulate || !released then w
    else match w.player
      case None => w
      case Some(p) => (
        match (PI.Get(w.position, p), CS.Get(w.velocity, p))
        case (Some(position), Some(velocity)) =>
          var next := Add(position, velocity);
          if Len(Sub(cursor, next)) > EnginePower(w, p) then w
          else w.(velocity := CS.Set(w.velocity, p, Sub(cursor, position)), needSimulate := true)
        case _ => w)
  }

  /** The cursor cells thrust accepts are exactly the coast cell (for a
      non-negative engine power) and the cells `spiral` lists around it: the
      cells `player_velocity_highlight_system` draws. */
  lemma ThrustReach(w: World, cursor: Hex)
    requires Stores(w) && !w.simulate && w.player.Some?
    requires PI.Has(w.position, w.player.value) && CS.Has(w.velocity, w.player.value)
    requires Valid(cursor) && Valid(PI.Get(w.position, w.player.value).value)
    requires Valid(CS.Get(w.velocity, w.player.value).value)
    ensures var p := w.player.value;
      var coast := Add(PI.Get(w.position, p).value, CS.Get(w.velocity, p).value);
      && (cursor == coast ==> (ThrustAccepted(w, true, cursor) <==> EnginePower(w, p) >= 0))
      && (cursor != coast ==> (ThrustAccepted(w, true, cursor) <==> cursor in Spiral(coast, EnginePower(w, p))))
  {
    var p := w.player.value;
    var coast := Add(PI.Get(w.position, p).value, CS.Get(w.velocity, p).value);
    WithinReach(coast, cursor, EnginePower(w, p));
  }

  // ---------------------------------------------------------------------------
  // velocity_position_system and the collision scan

  /** One call of `collision_event`: it only logs the pair. */
  datatype Collision = Collision(mover: EntityId, other: EntityId)

  /** The events raised for every occupant of one cell set. */
  function Report(e: EntityId, occupants: set<EntityId>): (m: multiset<Collision>)
    ensures forall c :: m[c] > 0 <==> c.mover == e && c.other in occupants
    ensures forall c :: m[c] <= 1
  {
    multiset(set o | o in occupants :: Collision(e, o))
  }

  /** The occupants of a cell, a cell without a set counting as empty. With
      an agreeing index they are exactly the entities positioned there. */
  function Occupants(pos: PI.Positions, h: Hex): (o: set<EntityId>)
    ensures PI.Consistent(pos) ==> forall x :: x in o <==> InRange(x) && PI.Get(pos, x) == Some(h)
  {
    match PI.At(pos, h)
    case Some(occupants) => occupants
    case None => {}
  }

  /** The events raised for one step of the swept line, as the scan is meant
      to work: a `One` cell equal to the start is skipped and any other `One`
      cell reports its occupants; for `Alt(a, b)` the first cell is checked,
      and the second only when the first is empty. Each occupant is reported
      once. */
  function ScanStep(pos: PI.Positions, e: EntityId, start: Hex, step: Path): (r: multiset<Collision>)
    ensures forall c :: r[c] <= 1
    ensures forall c :: c in r ==> c.mover == e
    ensures step.One? ==>
      forall o :: Collision(e, o) in r <==> step.cell != start && o in Occupants(pos, step.cell)
    ensures step.Alt? && |Occupants(pos, step.first)| > 0 ==>
      forall o :: Collision(e, o) in r <==> o in Occupants(pos, step.first)
    ensures step.Alt? && |Occupants(pos, step.first)| == 0 ==>
      forall o :: Collision(e, o) in r <==> o in Occupants(pos, step.second)
  {
    match step
    case One(a) => if a == start then multiset{} else Report(e, Occupants(pos, a))
    case Alt(a, b) =>
      if |Occupants(pos, a)| > 0 then Report(e, Occupants(pos, a)) else Report(e, Occupants(pos, b))
  }

  /** The events raised for one step of the swept line, as the scan is written.
      `One` steps behave as intended. For `Alt(a, b)` a missing or empty set
      at `a` reports nothing, and an occupied `a` reports the occupants of
      `b` instead of its own. */
  function ScanStepAsWritten(pos: PI.Positions, e: EntityId, start: Hex, step: Path): (r: multiset<Collision>)
    ensures step.One? ==> r == ScanStep(pos, e, start, step)
    ensures step.Alt? && |Occupants(pos, step.first)| == 0 ==> r == multiset{}
    ensures step.Alt? && |Occupants(pos, step.first)| > 0 ==> r == Report(e, Occupants(pos, step.second))
  {
    match step
    case One(a) => ScanStep(pos, e, start, One(a))
    case Alt(a, b) =>
      match PI.At(pos, a)
      case None => multiset{}
      case Some(atA) =>
        if |atA| > 0 then (
          match PI.At(pos, b)
          case None => multiset{}
          case Some(atB) => Report(e, atB))
        else
          assert Report(e, atA) == multiset{};
          Report(e, atA)
  }

  /** With an agreeing index, the written and the intended step raise the same
      events exactly when the step is a single cell or an edge crossing whose
      two cells are both empty. */
  lemma StepAgreement(pos: PI.Positions, e: EntityId, start: Hex, step: Path)
    requires PI.Consistent(pos)
    requires step.Alt? ==> step.first != step.second
    ensures ScanStepAsWritten(pos, e, start, step) == ScanStep(pos, e, start, step) <==>
      (step.Alt? ==> |Occupants(pos, step.first)| == 0 && |Occupants(pos, step.second)| == 0)
  {
    if step.Alt? {
      var a, b := step.first, step.second;
      var written, meant := ScanStepAsWritten(pos, e, start, step), ScanStep(pos, e, start, step);
      if |Occupants(pos, a)| > 0 {
        var x :| x in Occupants(pos, a);
        assert Collision(e, x) in meant;
        assert x !in Occupants(pos, b);
        assert Collision(e, x) !in written;
      } else if |Occupants(pos, b)| > 0 {
        var y :| y in Occupants(pos, b);
        assert Collision(e, y) in meant;
      } else {
        assert meant == multiset{};
      }
    }
  }

  /** The scan as written misses a blocker on the first cell of an edge
      crossing: an entity sweeping from the origin to `(1, 1, -2)` crosses the
      edge between `(1, 0, -1)` and `(0, 1, -1)`; with a single entity parked
      on `(1, 0, -1)` the written scan reports nothing for that step, while
      the intended scan reports that entity. */
  lemma AltScanMissesBlocker(ship: EntityId, rock: EntityId)
    requires InRange(ship) && InRange(rock) && ship != rock
    ensures var pos := PI.Set(PI.New(), rock, Hex(1, 0, -1));
      var step := Line(Hex(0, 0, 0), Hex(1, 1, -2), ExactProbe)[1];
      && step == Alt(Hex(1, 0, -1), Hex(0, 1, -1))
      && ScanStepAsWritten(pos, ship, Hex(0, 0, 0), step) == multiset{}
      && ScanStep(pos, ship, Hex(0, 0, 0), step) == multiset{Collision(ship, rock)}
  {
    var a, b := Hex(1, 0, -1), Hex(0, 1, -1);
    ExactLineDiagonal();
    var pos := PI.Set(PI.New(), rock, a);
    assert pos.byHex.Keys == {a};
    forall o | o in pos.byHex[a]
      ensures o == rock
    {
      assert InRange(o) && PI.Get(pos, o) == Some(a);
    }
    assert pos.byHex[a] == {rock};
    assert Report(ship, {rock}) == multiset{Collision(ship, rock)};
  }

  /** The events of a whole line, step by step, as intended: every step's
      events are among them, and all name the mover. */
  function Scan(pos: PI.Positions, e: EntityId, start: Hex, steps: seq<Path>): (r: multiset<Collision>)
    ensures forall c :: c in r ==> c.mover == e
    ensures forall i, c :: 0 <= i < |steps| && c in ScanStep(pos, e, start, steps[i]) ==> c in r
  {
    if steps == [] then multiset{}
    else
      var rest := Scan(pos, e, start, steps[1..]);
      assert forall i :: 0 < i < |steps| ==> steps[1..][i - 1] == steps[i];
      assert forall i, c :: 0 < i < |steps| && c in ScanStep(pos, e, start, steps[i]) ==> c in rest;
      ScanStep(pos, e, start, steps[0]) + rest
  }

  /** The events of a whole line, step by step, as the program raises them:
      every written step's events are among them, and all name the mover. */
  function ScanAsWritten(pos: PI.Positions, e: EntityId, start: Hex, steps: seq<Path>): (r: multiset<Collision>)
    ensures forall c :: c in r ==> c.mover == e
    ensures forall i, c :: 0 <= i < |steps| && c in ScanStepAsWritten(pos, e, start, steps[i]) ==> c in r
  {
    if steps == [] then multiset{}
    else
      var rest := ScanAsWritten(pos, e, start, steps[1..]);
      assert forall i :: 0 < i < |steps| ==> steps[1..][i - 1] == steps[i];
      assert forall i, c :: 0 < i < |steps| && c in ScanStepAsWritten(pos, e, start, steps[i]) ==> c in rest;
      ScanStepAsWritten(pos, e, start, steps[0]) + rest
  }

  /** On a line whose edge crossings pass only empty cells, the written scan
      raises exactly the intended events. */
  lemma {:induction false} ScanAgreesOffEdges(pos: PI.Positions, e: EntityId, start: Hex, steps: seq<Path>)
    requires forall i :: 0 <= i < |steps| && steps[i].Alt? ==>
      |Occupants(pos, steps[i].first)| == 0 && |Occupants(pos, steps[i].second)| == 0
    ensures ScanAsWritten(pos, e, start, steps) == Scan(pos, e, start, steps)
  {
    if steps != [] {
      var step := steps[0];
      if step.Alt? {
        assert ScanStep(pos, e, start, step) == multiset{};
      }
      assert forall i :: 0 <= i < |steps[1..]| ==> steps[1..][i] == steps[i + 1];
      ScanAgreesOffEdges(pos, e, start, steps[1..]);
    }
  }

  /** Every event of the intended scan comes from one of its steps. */
  lemma {:induction false} ScanFromSteps(pos: PI.Positions, e: EntityId, start: Hex, steps: seq<Path>, c: Collision)
    requires c in Scan(pos, e, start, steps)
    ensures exists i :: 0 <= i < |steps| && c in ScanStep(pos, e, start, steps[i])
  {
    if c !in ScanStep(pos, e, start, steps[0]) {
      ScanFromSteps(pos, e, start, steps[1..], c);
      var i :| 0 <= i < |steps[1..]| && c in ScanStep(pos, e, start, steps[1..][i]);
      assert steps[1..][i] == steps[i + 1];
    }
  }

  /** Every event of the written scan comes from one of its written steps. */
  lemma {:induction false} ScanAsWrittenFromSteps(pos: PI.Positions, e: EntityId, start: Hex, steps: seq<Path>, c: Collision)
    requires c in ScanAsWritten(pos, e, start, steps)
    ensures exists i :: 0 <= i < |steps| && c in ScanStepAsWritten(pos, e, start, steps[i])
  {
    if c !in ScanStepAsWritten(pos, e, start, steps[0]) {
      ScanAsWrittenFromSteps(pos, e, start, steps[1..], c);
      var i :| 0 <= i < |steps[1..]| && c in ScanStepAsWritten(pos, e, start, steps[1..][i]);
      assert steps[1..][i] == steps[i + 1];
    }
  }

  /** Every event of a step, written or intended, names the mover and (with an
      agreeing index) an entity that currently stands on one of the step's
      cells; a `One` step never reports the start cell. */
  lemma ScanStepSound(pos: PI.Positions, e: EntityId, start: Hex, step: Path, c: Collision)
    requires PI.Consistent(pos)
    requires c in ScanStep(pos, e, start, step) || c in ScanStepAsWritten(pos, e, start, step)
    ensures c.mover == e && InRange(c.other)
    ensures PI.Get(pos, c.other).Some? && PI.Get(pos, c.other).value in StepCells(step)
    ensures step.One? ==> PI.Get(pos, c.other).value != start
  {
  }

  /** Every event of a scan, written or intended, names the mover and an
      entity standing on a cell of the line. */
  lemma {:induction false} ScanSound(pos: PI.Positions, e: EntityId, start: Hex, steps: seq<Path>, c: Collision)
    requires PI.Consistent(pos)
    requires c in Scan(pos, e, start, steps) || c in ScanAsWritten(pos, e, start, steps)
    ensures c.mover == e && InRange(c.other)
    ensures exists i :: 0 <= i < |steps| && PI.Get(pos, c.other).Some? && PI.Get(pos, c.other).value in StepCells(steps[i])
  {
    if c in ScanStep(pos, e, start, steps[0]) || c in ScanStepAsWritten(pos, e, start, steps[0]) {
      ScanStepSound(pos, e, start, steps[0], c);
      assert PI.Get(pos, c.other).value in StepCells(steps[0]);
    } else {
      ScanSound(pos, e, start, steps[1..], c);
      var i :| 0 <= i < |steps[1..]| && PI.Get(pos, c.other).Some? && PI.Get(pos, c.other).value in StepCells(steps[1..][i]);
      assert steps[1..][i] == steps[i + 1];
    }
  }

  /** Where `velocity_position_system` leaves an entity: start plus velocity
      when it has both components, its old position otherwise. */
  function Target(w: World, e: EntityId): Option<Hex>
    requires Stores(w) && InRange(e)
  {
    match (PI.Get(w.position, e), CS.Get(w.velocity, e))
    case (Some(start), Some(velocity)) => Some(Add(start, velocity))
    case _ => PI.Get(w.position, e)
  }

  /** The history an entity ends a movement frame with: one entry, the end
      cell, appended when it moved and has a history. */
  function TargetHistory(w: World, e: EntityId): Option<seq<Hex>>
    requires Stores(w) && InRange(e)
  {
    match (PI.Get(w.position, e), CS.Get(w.velocity, e), CS.Get(w.history, e))
    case (Some(start), Some(velocity), Some(hs)) => Some(hs + [Add(start, velocity)])
    case _ => CS.Get(w.history, e)
  }

  /** Only the position index and the history store change during movement. */
  predicate MovementFrame(w: World, r: World)
  {
    r.(position := w.position, history := w.history) == w
  }

  /** One iteration of the loop in `velocity_position_system`: scan the swept
      line against the current positions with the written `Alt` rule, so that
      the log holds exactly the `collision_event` calls the program makes,
      then commit the end position and
      append it to the history. `line` is the per-step interpolation. */
  function MoveEntity(w: World, e: EntityId, line: Interpolation): (res: (World, multiset<Collision>))
    requires Stores(w) && InRange(e)
    ensures Stores(res.0) && MovementFrame(w, res.0)
    ensures PI.Get(res.0.position, e) == Target(w, e)
    ensures CS.Get(res.0.history, e) == TargetHistory(w, e)
    ensures forall o: EntityId :: InRange(o) && o != e ==>
      PI.Get(res.0.position, o) == PI.Get(w.position, o) && CS.Get(res.0.history, o) == CS.Get(w.history, o)
    ensures PI.Consistent(w.position) ==> PI.Consistent(res.0.position)
    ensures forall c :: c in res.1 ==> c.mover == e
    ensures PI.Get(w.position, e).None? || CS.Get(w.velocity, e).None? ==> res.1 == multiset{}
    ensures PI.Get(w.position, e).Some? && CS.Get(w.velocity, e).Some? ==>
      var start := PI.Get(w.position, e).value;
      res.1 == ScanAsWritten(w.position, e, start, Line(start, Add(start, CS.Get(w.velocity, e).value), line))
  {
    match (PI.Get(w.position, e), CS.Get(w.velocity, e))
    case (Some(start), Some(velocity)) =>
      var end := Add(start, velocity);
      var hits := ScanAsWritten(w.position, e, start, Line(start, end, line));
      var history := (
        match CS.Get(w.history, e)
        case Some(hs) => CS.Set(w.history, e, hs + [end])
        case None => w.history);
      (w.(position := PI.Set(w.position, e, end), history := history), hits)
    case _ => (w, multiset{})
  }

  /** The loop of `velocity_position_system` over the given ids, in order.
      Later entities see the positions earlier ones committed. */
  function MoveAll(w: World, ids: seq<EntityId>, line: Interpolation): (res: (World, multiset<Collision>))
    requires Stores(w) && forall i :: 0 <= i < |ids| ==> InRange(ids[i])
    ensures Stores(res.0) && MovementFrame(w, res.0)
    ensures PI.Consistent(w.position) ==> PI.Consistent(res.0.position)
    ensures forall c :: c in res.1 ==> c.mover in ids
    decreases |ids|
  {
    if ids == [] then (w, multiset{})
    else
      var (w1, hits1) := MoveEntity(w, ids[0], line);
      var (w2, hits2) := MoveAll(w1, ids[1..], line);
      (w2, hits1 + hits2)
  }

  /** Each entity is moved exactly by its own iteration: an id in the list
      ends at its target with one history entry appended, and any other
      entity is untouched. */
  lemma {:induction false} MoveAllEffect(w: World, ids: seq<EntityId>, line: Interpolation, e: EntityId)
    requires Stores(w) && InRange(e)
    requires forall i :: 0 <= i < |ids| ==> InRange(ids[i])
    requires forall i, j :: 0 <= i < j < |ids| ==> ids[i] != ids[j]
    ensures var r := MoveAll(w, ids, line).0;
      && PI.Get(r.position, e) == (if e in ids then Target(w, e) else PI.Get(w.position, e))
      && CS.Get(r.history, e) == (if e in ids then TargetHistory(w, e) else CS.Get(w.history, e))
    decreases |ids|
  {
    if ids != [] {
      var w1 := MoveEntity(w, ids[0], line).0;
      MoveAllEffect(w1, ids[1..], line, e);
      if e == ids[0] {
        assert e !in ids[1..] by {
          forall j | 0 <= j < |ids[1..]|
            ensures ids[1..][j] != e
          {
            assert ids[1..][j] == ids[j + 1];
          }
        }
      } else {
        assert Target(w1, e) == Target(w, e);
        assert TargetHistory(w1, e) == TargetHistory(w, e);
        assert e in ids <==> e in ids[1..];
      }
    }
  }

  /** `velocity_position_system`: nothing unless a turn is being simulated,
      otherwise every created entity in id order. Ids at or above
      `ENTITY_MAX` would index the stores out of bounds, so in a simulated
      frame every created id must be below it. */
  function VelocityPositionSystem(w: World, line: Interpolation): (res: (World, multiset<Collision>))
    requires Stores(w) && (w.simulate ==> w.entities.nextIndex <= ENTITY_MAX)
    ensures !w.simulate ==> res == (w, multiset{})
    ensures Stores(res.0) && MovementFrame(w, res.0)
    ensures PI.Consistent(w.position) ==> PI.Consistent(res.0.position)
    ensures forall c :: c in res.1 ==> c.mover.index < w.entities.nextIndex
  {
    if !w.simulate then (w, multiset{})
    else
      var ids := All(w.entities);
      assert forall c: Collision :: c.mover in ids ==> c.mover.index < w.entities.nextIndex by {
        forall c: Collision | c.mover in ids
          ensures c.mover.index < w.entities.nextIndex
        {
          AllComplete(w.entities, c.mover);
        }
      }
      MoveAll(w, ids, line)
  }

  /** During a simulated frame every created entity with a position and a
      velocity ends at start plus velocity, with one history entry appended;
      every other entity is left where it was. */
  lemma VelocityEffect(w: World, line: Interpolation, e: EntityId)
    requires Stores(w) && w.entities.nextIndex <= ENTITY_MAX && InRange(e)
    requires w.simulate
    ensures var r := VelocityPositionSystem(w, line).0;
      && PI.Get(r.position, e) == (if e.index < w.entities.nextIndex then Target(w, e) else PI.Get(w.position, e))
      && CS.Get(r.history, e) == (if e.index < w.entities.nextIndex then TargetHistory(w, e) else CS.Get(w.history, e))
  {
    var ids := All(w.entities);
    AllComplete(w.entities, e);
    MoveAllEffect(w, ids, line, e);
  }

  // ---------------------------------------------------------------------------
  // drag_scroll_system

  /** `drag_scroll_system`, given the cell under the cursor. A press stores
      the cursor relative to the center; while dragging the center follows
      the cursor; a release ends the drag. Nothing happens mid-simulation. */
  function DragScrollSystem(w: World, pressed: bool, released: bool, pointed: Hex): (r: World)
    ensures w.simulate ==> r == w
    ensures r.(centerHex := w.centerHex, drag := w.drag) == w
    ensures !w.simulate && w.drag.Some? ==> Add(r.centerHex, w.drag.value) == pointed
    ensures !w.simulate && w.drag.Some? ==> (r.drag == None <==> released)
    ensures !w.simulate && w.drag.Some? && !released ==> r.drag == w.drag
    ensures !w.simulate && w.drag == None ==> r.centerHex == w.centerHex
    ensures !w.simulate && w.drag == None && pressed ==> r.drag.Some? && Add(w.centerHex, r.drag.value) == pointed
    ensures !w.simulate && w.drag == None && !pressed ==> r == w
  {
    if w.simulate then w
    else match w.drag
      case Some(start) =>
        var w1 := w.(centerHex := Sub(pointed, start));
        if released then w1.(drag := None) else w1
      case None =>
        if pressed then w.(drag := Some(Sub(pointed, w.centerHex))) else w
  }

  /** Pressing and then holding still does not scroll; moving the cursor by
      `d` while dragging moves the center by `d`. */
  lemma DragFollowsCursor(w: World, pointed: Hex, d: Hex, released: bool)
    requires !w.simulate && w.drag == None
    ensures var w1 := DragScrollSystem(w, true, false, pointed);
      && DragScrollSystem(w1, false, released, pointed).centerHex == w.centerHex
      && DragScrollSystem(w1, false, released, Add(pointed, d)).centerHex == Add(w.centerHex, d)
  {
  }

  // ---------------------------------------------------------------------------
  // tick_event

  /** What the main loop samples each frame: the cell under the cursor
      (`from_pixel` of the cursor, before subtracting the center) and the
      three button edges the systems poll. */
  datatype Input = Input(pointed: Hex, leftReleased: bool, rightPressed: bool, rightReleased: bool)

  /** One frame: the main loop computes the cursor cell relative to the
      current center, then `tick_event` runs drag-scroll, thrust, movement and
      the turn flag, in that order. The drawing systems change nothing, but
      `visible_object_system` and `history_trail_system` read the stores of
      every created id on every frame, so every frame needs all created ids
      below `ENTITY_MAX`. */
  function Tick(w: World, input: Input, line: Interpolation): (res: (World, multiset<Collision>))
    requires Stores(w) && w.entities.nextIndex <= ENTITY_MAX
    ensures Stores(res.0) && res.0.entities == w.entities && res.0.player == w.player
    ensures PI.Consistent(w.position) ==> PI.Consistent(res.0.position)
    ensures res.0.turn == w.turn || res.0.turn == w.turn + 1
  {
    var cursorWorld := Sub(input.pointed, w.centerHex);
    var w1 := DragScrollSystem(w, input.rightPressed, input.rightReleased, input.pointed);
    var w2 := PlayerThrustSystem(w1, input.leftReleased, cursorWorld);
    var (w3, log) := VelocityPositionSystem(w2, line);
    (SimulationSystem(w3), log)
  }

  /** Accepted thrust takes effect one frame late: the frame that accepts it
      only raises the turn flag (the player has not moved yet), and the next
      frame, whatever its input, moves the player onto the cell that was under
      the cursor and ends the simulated frame. */
  lemma ThrustMovesNextFrame(w: World, first: Input, second: Input, line: Interpolation)
    requires Stores(w) && w.entities.nextIndex <= ENTITY_MAX
    requires w.player.Some? && w.player.value.index < w.entities.nextIndex
    requires ThrustAccepted(w, first.leftReleased, Sub(first.pointed, w.centerHex))
    ensures var p := w.player.value;
      var w1 := Tick(w, first, line).0;
      var w2 := Tick(w1, second, line).0;
      && w1.simulate && w1.turn == w.turn + 1
      && PI.Get(w1.position, p) == PI.Get(w.position, p)
      && PI.Get(w2.position, p) == Some(Sub(first.pointed, w.centerHex))
      && !w2.simulate && w2.turn == w1.turn
  {
    var p := w.player.value;
    var cursor := Sub(first.pointed, w.centerHex);
    var d1 := DragScrollSystem(w, first.rightPressed, first.rightReleased, first.pointed);
    assert ThrustAccepted(d1, first.leftReleased, cursor);
    var t1 := PlayerThrustSystem(d1, first.leftReleased, cursor);
    var w1 := Tick(w, first, line).0;
    assert w1 == SimulationSystem(t1);
    var c1 := Sub(second.pointed, w1.centerHex);
    var d2 := DragScrollSystem(w1, second.rightPressed, second.rightReleased, second.pointed);
    var t2 := PlayerThrustSystem(d2, second.leftReleased, c1);
    assert t2 == w1;
    VelocityEffect(w1, line, p);
    assert Target(w1, p) == Some(cursor);
  }
}

=== FILE: hex_grid.dfy ===
/** Cube-coordinate hex arithmetic, directions, rings, spirals and the
    structure of `line`, after src/hex/hex.rs.

    A `Hex` stores all three cube coordinates, exactly like the Rust struct:
    `Hex::new` accepts any triple, and only `hex(q, r)` (here `Cube`) and the
    operators that preserve the zero sum guarantee `q + r + s == 0`. The
    source's `i32` arithmetic is modelled with unbounded integers. */
module HexGrid {
  import opened IntMath

  datatype Hex = Hex(q: int, r: int, s: int)

  /** One step of a traced line: a single cell, or two candidate cells when
      the two nudged interpolations round to different cells. */
  datatype Path = One(cell: Hex) | Alt(first: Hex, second: Hex)

  /** The cube invariant `q + r + s == 0`. */
  predicate Valid(h: Hex)
  {
    h.q + h.r + h.s == 0
  }

  /** `hex(q, r)`: the axial constructor, deriving `s`. */
  function Cube(q: int, r: int): (h: Hex)
    ensures h.q == q && h.r == r
    ensures h.q + h.r + h.s == 0
  {
    Hex(q, r, -q - r)
  }

  /** A valid hex is determined by `q` and `r`. */
  lemma CubeOfValid(h: Hex)
    requires Valid(h)
    ensures Cube(h.q, h.r) == h
  {
  }

  const Origin: Hex := Hex(0, 0, 0)

  // ---------------------------------------------------------------------------
  // Operators (the `Add`, `Sub` and `Mul` impls)

  /** `Hex + Hex`. */
  function Add(a: Hex, b: Hex): (c: Hex)
    ensures c.q + c.r + c.s == (a.q + a.r + a.s) + (b.q + b.r + b.s)
  {
    Hex(a.q + b.q, a.r + b.r, a.s + b.s)
  }

  /** `Hex - Hex`. */
  function Sub(a: Hex, b: Hex): (c: Hex)
    ensures c.q + c.r + c.s == (a.q + a.r + a.s) - (b.q + b.r + b.s)
    ensures c.q == a.q - b.q && c.r == a.r - b.r && c.s == a.s - b.s
  {
    Hex(a.q - b.q, a.r - b.r, a.s - b.s)
  }

  /** `Hex * i32`. */
  function Scale(h: Hex, k: int): (c: Hex)
    ensures h.q + h.r + h.s == 0 ==> c.q + c.r + c.s == 0
    ensures k == 0 ==> c == Hex(0, 0, 0)
    ensures k == 1 ==> c == h
  {
    Hex(h.q * k, h.r * k, h.s * k)
  }

  /** `i32 * Hex`: the same as `Hex * i32`. */
  function ScaleLeft(k: int, h: Hex): (c: Hex)
    ensures c == Scale(h, k)
  {
    Hex(k * h.q, k * h.r, k * h.s)
  }

  /** `Hex + i32`: adds the scalar to every coordinate. */
  function AddScalar(h: Hex, k: int): (c: Hex)
    ensures c.q + c.r + c.s == (h.q + h.r + h.s) + 3 * k
  {
    Hex(h.q + k, h.r + k, h.s + k)
  }

  /** `i32 + Hex`. */
  function ScalarAdd(k: int, h: Hex): (c: Hex)
    ensures c.q + c.r + c.s == 3 * k + (h.q + h.r + h.s)
  {
    Hex(k + h.q, k + h.r, k + h.s)
  }

  /** `Hex - i32`. */
  function SubScalar(h: Hex, k: int): (c: Hex)
    ensures c.q + c.r + c.s == (h.q + h.r + h.s) - 3 * k
  {
    Hex(h.q - k, h.r - k, h.s - k)
  }

  /** `i32 - Hex`. */
  function ScalarSub(k: int, h: Hex): (c: Hex)
    ensures c.q + c.r + c.s == 3 * k - (h.q + h.r + h.s)
  {
    Hex(k - h.q, k - h.r, k - h.s)
  }

  /** `Hex * Hex`: component-wise product. `(1, 1, 1)` is its unit and the
      origin absorbs it; neither is a property a cube-sum-zero product keeps
      (see `MulBreaksCube`). */
  function Mul(a: Hex, b: Hex): (c: Hex)
    ensures b == Hex(1, 1, 1) ==> c == a
    ensures a == Hex(1, 1, 1) ==> c == b
    ensures a == Hex(0, 0, 0) || b == Hex(0, 0, 0) ==> c == Hex(0, 0, 0)
  {
    Hex(a.q * b.q, a.r * b.r, a.s * b.s)
  }

  /** The scalar operators break the cube invariant of every valid hex: they
      shift the coordinate sum by three times the scalar. */
  lemma ScalarOpsBreakCube(h: Hex, k: int)
    requires Valid(h) && k != 0
    ensures !Valid(AddScalar(h, k)) && !Valid(ScalarAdd(k, h))
    ensures !Valid(SubScalar(h, k)) && !Valid(ScalarSub(k, h))
  {
  }

  /** The component-wise product does not keep the cube invariant either. */
  lemma MulBreaksCube()
    ensures Valid(Hex(1, -1, 0))
    ensures !Valid(Mul(Hex(1, -1, 0), Hex(1, -1, 0)))
  {
    assert Mul(Hex(1, -1, 0), Hex(1, -1, 0)) == Hex(1, 1, 0);
  }

  // ---------------------------------------------------------------------------
  // Distance and directions

  /** `len`: the hex distance from the origin. */
  function Len(h: Hex): (n: nat)
    ensures n >= Abs(h.q) && n >= Abs(h.r) && n >= Abs(h.s)
    ensures n == Abs(h.q) || n == Abs(h.r) || n == Abs(h.s)
    ensures n == 0 <==> h == Hex(0, 0, 0)
  {
    Max(Max(Abs(h.q), Abs(h.r)), Abs(h.s))
  }

  /** The six unit vectors, in the order of the source's `directions` array. */
  function DirectionTable(k: int): Hex
    requires 0 <= k < 6
  {
    match k
    case 0 => Hex(1, -1, 0)
    case 1 => Hex(1, 0, -1)
    case 2 => Hex(0, 1, -1)
    case 3 => Hex(-1, 1, 0)
    case 4 => Hex(-1, 0, 1)
    case _ => Hex(0, -1, 1)
  }

  /** `direction(i)`: indexes the table with Rust's truncating `i % 6`, which is
      out of bounds unless `i >= 0` or `i` is a multiple of six. */
  function Direction(i: int): (d: Hex)
    requires i >= 0 || i % 6 == 0
    ensures d.q + d.r + d.s == 0
    ensures i >= 0 ==> d == DirectionTable(i % 6)
    ensures i < 0 ==> d == DirectionTable(0)
    ensures 0 <= i < 6 ==> d == DirectionTable(i)
  {
    var k := if i >= 0 then i % 6 else -((-i) % 6);
    DirectionTable(k)
  }

  /** Every direction is a unit step. */
  lemma DirectionUnit(i: int)
    requires i >= 0 || i % 6 == 0
    ensures Valid(Direction(i)) && Len(Direction(i)) == 1
  {
  }

  /** Directions repeat with period six. */
  lemma DirectionPeriodic(i: int)
    requires i >= 0
    ensures Direction(i) == Direction(i % 6)
    ensures Direction(i + 6) == Direction(i)
  {
  }

  /** Directions three apart are opposite. */
  lemma DirectionsOpposite(i: int)
    requires 0 <= i < 6
    ensures Add(Direction(i), Direction((i + 3) % 6)) == Origin
  {
    var o := if i < 3 then i + 3 else i - 3;
    assert (i + 3) % 6 == o;
    assert Direction(i) == DirectionTable(i);
    assert Direction(o) == DirectionTable(o);
    var a, b := DirectionTable(i), DirectionTable(o);
    assert a.q == -b.q && a.r == -b.r && a.s == -b.s by {
      if i == 0 {
      } else if i == 1 {
      } else if i == 2 {
      } else if i == 3 {
      } else if i == 4 {
      } else {
      }
    }
  }

  /** The position of a unit vector in the direction table. */
  function DirectionIndex(d: Hex): int
  {
    if d == Hex(1, -1, 0) then 0
    else if d == Hex(1, 0, -1) then 1
    else if d == Hex(0, 1, -1) then 2
    else if d == Hex(-1, 1, 0) then 3
    else if d == Hex(-1, 0, 1) then 4
    else 5
  }

  /** The six directions are pairwise distinct: the table has a left inverse. */
  lemma DirectionsDistinct(i: int, j: int)
    requires 0 <= i < 6 && 0 <= j < 6
    ensures DirectionIndex(Direction(i)) == i
    ensures i != j ==> Direction(i) != Direction(j)
  {
    assert DirectionIndex(Direction(j)) == j by {
      if j == 0 {} else if j == 1 {} else if j == 2 {} else if j == 3 {} else if j == 4 {} else {}
    }
    if i == 0 {} else if i == 1 {} else if i == 2 {} else if i == 3 {} else if i == 4 {} else {}
  }

  // ---------------------------------------------------------------------------
  // Rings and spirals

  /** The number of iterations of the Rust range `0..n`. */
  function Steps(n: int): nat
  {
    if n > 0 then n else 0
  }

  /** The cell where edge `i` of the ring walk starts: the walk starts at
      `center + direction(4) * radius` and each edge advances `radius` steps
      along `direction(i)`. */
  function Corner(center: Hex, radius: int, i: nat): Hex
    requires i <= 6
  {
    if i == 0 then Add(center, Scale(Direction(4), radius))
    else Add(Corner(center, radius, i - 1), Scale(Direction(i - 1), radius))
  }

  /** The cells pushed while walking one edge: `start`, `start + d`, ... */
  function Edge(start: Hex, i: nat, radius: int): (e: seq<Hex>)
    requires i < 6
    ensures |e| == Steps(radius)
  {
    seq(Steps(radius), j requires 0 <= j < Steps(radius) => Add(start, Scale(Direction(i), j)))
  }

  /** The cells pushed while walking the first `i` edges. */
  function Edges(center: Hex, radius: int, i: nat): (cells: seq<Hex>)
    requires i <= 6
    ensures |cells| == i * Steps(radius)
  {
    if i == 0 then []
    else Edges(center, radius, i - 1) + Edge(Corner(center, radius, i - 1), i - 1, radius)
  }

  /** `ring(center, radius)`: the six-edge walk. */
  function Ring(center: Hex, radius: int): (cells: seq<Hex>)
    ensures |cells| == 6 * Steps(radius)
  {
    Edges(center, radius, 6)
  }

  /** The corners of the walk, relative to the center. */
  function CornerOffset(radius: int, i: nat): Hex
    requires i <= 6
  {
    match i
    case 0 => Hex(-radius, 0, radius)
    case 1 => Hex(0, -radius, radius)
    case 2 => Hex(radius, -radius, 0)
    case 3 => Hex(radius, 0, -radius)
    case 4 => Hex(0, radius, -radius)
    case 5 => Hex(-radius, radius, 0)
    case _ => Hex(-radius, 0, radius)
  }

  /** One edge of the walk moves from one corner offset to the next. */
  lemma CornerOffsetStep(radius: int, i: nat)
    requires 1 <= i <= 6
    ensures Add(CornerOffset(radius, i - 1), Scale(DirectionTable(i - 1), radius)) == CornerOffset(radius, i)
  {
    var k := radius;
    if i == 1 {
      assert Scale(Hex(1, -1, 0), k) == Hex(k, -k, 0);
    } else if i == 2 {
      assert Scale(Hex(1, 0, -1), k) == Hex(k, 0, -k);
    } else if i == 3 {
      assert Scale(Hex(0, 1, -1), k) == Hex(0, k, -k);
    } else if i == 4 {
      assert Scale(Hex(-1, 1, 0), k) == Hex(-k, k, 0);
    } else if i == 5 {
      assert Scale(Hex(-1, 0, 1), k) == Hex(-k, 0, k);
    } else {
      assert Scale(Hex(0, -1, 1), k) == Hex(0, -k, k);
    }
  }

  lemma {:induction false} CornerIsOffset(center: Hex, radius: int, i: nat)
    requires i <= 6
    ensures Corner(center, radius, i) == Add(center, CornerOffset(radius, i))
  {
    if i > 0 {
      CornerIsOffset(center, radius, i - 1);
      CornerOffsetStep(radius, i);
    }
  }

  /** The walk closes: after six edges it is back at its starting cell. */
  lemma RingWalkCloses(center: Hex, radius: int)
    ensures Corner(center, radius, 6) == Corner(center, radius, 0)
  {
    CornerIsOffset(center, radius, 6);
    CornerIsOffset(center, radius, 0);
  }

  lemma ShiftCancels(center: Hex, a: Hex, b: Hex)
    ensures Sub(Add(Add(center, a), b), center) == Add(a, b)
  {
  }

  /** Relative to the center, the cell `j` steps into edge `i` is at distance
      `radius`. */
  lemma EdgeOffsetOnRing(radius: int, i: nat, j: int)
    requires i < 6 && 0 <= j < radius
    ensures Valid(Add(CornerOffset(radius, i), Scale(DirectionTable(i), j)))
    ensures Len(Add(CornerOffset(radius, i), Scale(DirectionTable(i), j))) == radius
  {
    var d := Add(CornerOffset(radius, i), Scale(DirectionTable(i), j));
    if i == 0 {
      assert d == Hex(-radius + j, -j, radius);
    } else if i == 1 {
      assert d == Hex(j, -radius, radius - j);
    } else if i == 2 {
      assert d == Hex(radius, -radius + j, -j);
    } else if i == 3 {
      assert d == Hex(radius - j, j, -radius);
    } else if i == 4 {
      assert d == Hex(-j, radius, -radius + j);
    } else {
      assert d == Hex(-radius, radius - j, j);
    }
  }

  /** The cell `j` steps into edge `i` lies on the ring of the given radius. */
  lemma EdgeCellOnRing(center: Hex, radius: int, i: nat, j: int)
    requires i < 6 && 0 <= j < radius
    ensures Valid(Sub(Add(Corner(center, radius, i), Scale(Direction(i), j)), center))
    ensures Len(Sub(Add(Corner(center, radius, i), Scale(Direction(i), j)), center)) == radius
  {
    var step := Scale(DirectionTable(i), j);
    var offset := CornerOffset(radius, i);
    var x := Sub(Add(Corner(center, radius, i), Scale(Direction(i), j)), center);
    assert x == Add(offset, step) by {
      CornerIsOffset(center, radius, i);
      ShiftCancels(center, offset, step);
    }
    EdgeOffsetOnRing(radius, i, j);
  }

  lemma {:induction false} EdgesOnRing(center: Hex, radius: int, i: nat, x: Hex)
    requires i <= 6
    requires x in Edges(center, radius, i)
    ensures Valid(Sub(x, center)) && Len(Sub(x, center)) == radius
  {
    if i > 0 {
      if x in Edges(center, radius, i - 1) {
        EdgesOnRing(center, radius, i - 1, x);
      } else {
        var e := Edge(Corner(center, radius, i - 1), i - 1, radius);
        var j :| 0 <= j < |e| && e[j] == x;
        EdgeCellOnRing(center, radius, i - 1, j);
      }
    }
  }

  lemma {:induction false} EdgeInEdges(center: Hex, radius: int, k: nat, i: nat, x: Hex)
    requires k < i <= 6
    requires x in Edge(Corner(center, radius, k), k, radius)
    ensures x in Edges(center, radius, i)
  {
    if k < i - 1 {
      EdgeInEdges(center, radius, k, i - 1, x);
    }
  }

  /** `x` is the cell `j` steps into edge `k` of the ring. */
  lemma OnEdge(center: Hex, radius: int, k: nat, j: int, x: Hex)
    requires k < 6 && 0 <= j < radius
    requires Sub(x, center) == Add(CornerOffset(radius, k), Scale(Direction(k), j))
    ensures x in Ring(center, radius)
  {
    CornerIsOffset(center, radius, k);
    var e := Edge(Corner(center, radius, k), k, radius);
    assert e[j] == x;
    EdgeInEdges(center, radius, k, 6, x);
  }

  /** Every cell at distance `radius` from the center is on the walk. */
  lemma RingComplete(center: Hex, radius: int, x: Hex)
    requires radius > 0
    requires Valid(Sub(x, center)) && Len(Sub(x, center)) == radius
    ensures x in Ring(center, radius)
  {
    var d := Sub(x, center);
    if d.s == radius && d.r > -radius {
      OnEdge(center, radius, 0, -d.r, x);
    } else if d.r == -radius && d.q < radius {
      OnEdge(center, radius, 1, d.q, x);
    } else if d.q == radius && d.r < 0 {
      OnEdge(center, radius, 2, d.r + radius, x);
    } else if d.s == -radius && d.r < radius {
      OnEdge(center, radius, 3, d.r, x);
    } else if d.r == radius && d.q > -radius {
      OnEdge(center, radius, 4, -d.q, x);
    } else {
      OnEdge(center, radius, 5, d.s, x);
    }
  }

  /** The ring holds exactly the cells at distance `radius` from the center. */
  lemma RingMembers(center: Hex, radius: int, x: Hex)
    ensures x in Ring(center, radius) <==>
      radius > 0 && Valid(Sub(x, center)) && Len(Sub(x, center)) == radius
  {
    if x in Ring(center, radius) {
      EdgesOnRing(center, radius, 6, x);
    } else if radius > 0 && Valid(Sub(x, center)) && Len(Sub(x, center)) == radius {
      RingComplete(center, radius, x);
    }
  }

  lemma {:induction false} EdgesStartAtCorner(center: Hex, radius: int, i: nat)
    requires 1 <= i <= 6 && radius > 0
    ensures Edges(center, radius, i)[0] == Corner(center, radius, 0)
  {
    if i > 1 {
      EdgesStartAtCorner(center, radius, i - 1);
    }
  }

  /** The ring starts at `center + direction(4) * radius`. */
  lemma RingFirst(center: Hex, radius: int)
    requires radius > 0
    ensures Ring(center, radius)[0] == Add(center, Scale(Direction(4), radius))
  {
    EdgesStartAtCorner(center, radius, 6);
  }

  /** The inner loop of `add_ring`: pushes `radius` cells along direction `i`,
      starting at `start`, and returns where the walk stopped. */
  method WalkEdge(start: Hex, i: nat, radius: int, results: seq<Hex>) returns (out: seq<Hex>, current: Hex)
    requires i < 6
    ensures out == results + Edge(start, i, radius)
    ensures radius > 0 ==> current == Add(start, Scale(Direction(i), radius))
    ensures radius <= 0 ==> current == start
  {
    ghost var e := Edge(start, i, radius);
    out := results;
    current := start;
    var j := 0;
    while j < radius
      invariant 0 <= j <= Steps(radius)
      invariant out == results + e[..j]
      invariant current == Add(start, Scale(Direction(i), j))
    {
      assert e[..j + 1] == e[..j] + [current];
      out := out + [current];
      current := Add(current, Direction(i));
      j := j + 1;
    }
    assert e[..j] == e;
  }

  /** `add_ring`: appends the ring walk to `results`, as the nested loops of the
      source do. */
  method AddRing(center: Hex, radius: int, results: seq<Hex>) returns (out: seq<Hex>)
    ensures out == results + Ring(center, radius)
    ensures |out| == |results| + 6 * Steps(radius)
  {
    out := results;
    var current := Add(center, Scale(Direction(4), radius));
    var i := 0;
    while i < 6
      invariant 0 <= i <= 6
      invariant out == results + Edges(center, radius, i)
      invariant radius > 0 ==> current == Corner(center, radius, i)
      invariant radius <= 0 ==> current == Corner(center, radius, 0)
    {
      var start := current;
      out, current := WalkEdge(start, i, radius, out);
      assert out == results + Edges(center, radius, i + 1) by {
        assert radius > 0 ==> start == Corner(center, radius, i);
        assert radius <= 0 ==> Edge(start, i, radius) == [] == Edge(Corner(center, radius, i), i, radius);
      }
      i := i + 1;
    }
  }

  /** `Hex::ring`. */
  method ComputeRing(center: Hex, radius: int) returns (cells: seq<Hex>)
    ensures cells == Ring(center, radius)
    ensures forall x :: x in cells <==>
      radius > 0 && Valid(Sub(x, center)) && Len(Sub(x, center)) == radius
  {
    cells := AddRing(center, radius, []);
    forall x
      ensures x in cells <==> radius > 0 && Valid(Sub(x, center)) && Len(Sub(x, center)) == radius
    {
      RingMembers(center, radius, x);
    }
  }

  /** `spiral(center, k)`: the rings of radius 1 to k, in that order. */
  function Spiral(center: Hex, k: int): (cells: seq<Hex>)
    ensures |cells| == if k > 0 then 3 * k * (k + 1) else 0
    decreases k
  {
    if k <= 0 then []
    else
      assert 3 * (k - 1) * k + 6 * k == 3 * k * (k + 1);
      Spiral(center, k - 1) + Ring(center, k)
  }

  /** The spiral holds exactly the cells at distance 1 to k; the center is not one. */
  lemma {:induction false} SpiralMembers(center: Hex, k: int, x: Hex)
    ensures x in Spiral(center, k) <==>
      Valid(Sub(x, center)) && 1 <= Len(Sub(x, center)) <= k
    decreases k
  {
    if k > 0 {
      SpiralMembers(center, k - 1, x);
      RingMembers(center, k, x);
    }
  }

  lemma SpiralExcludesCenter(center: Hex, k: int)
    ensures center !in Spiral(center, k)
  {
    SpiralMembers(center, k, center);
  }

  /** A cell is at distance zero from another exactly when they are the same cell. */
  lemma SameCellIffNear(center: Hex, x: Hex)
    ensures Len(Sub(x, center)) == 0 <==> x == center
  {
    var d := Sub(x, center);
    if d == Hex(0, 0, 0) {
      assert x == Hex(center.q, center.r, center.s);
    }
  }

  /** Within distance `k` of a center lie the center itself (when `k` is not
      negative) and exactly the other cells `spiral` lists. */
  lemma WithinReach(center: Hex, x: Hex, k: int)
    requires Valid(center) && Valid(x)
    ensures x == center ==> (Len(Sub(x, center)) <= k <==> k >= 0)
    ensures x != center ==> (Len(Sub(x, center)) <= k <==> x in Spiral(center, k))
  {
    SameCellIffNear(center, x);
    if x != center {
      SpiralMembers(center, k, x);
      assert Valid(Sub(x, center));
    }
  }

  /** `Hex::spiral`: one `add_ring` per radius `1..=k`. */
  method ComputeSpiral(center: Hex, k: int) returns (cells: seq<Hex>)
    ensures cells == Spiral(center, k)
    ensures |cells| == if k > 0 then 3 * k * (k + 1) else 0
  {
    cells := [];
    var radius := 1;
    while radius <= k
      invariant 1 <= radius <= Steps(k) + 1
      invariant cells == Spiral(center, radius - 1)
    {
      cells := AddRing(center, radius, cells);
      radius := radius + 1;
    }
  }

  // ---------------------------------------------------------------------------
  // Lines

  /** What the two epsilon-nudged interpolations of one step of `line` round to:
      `(uq, ur)` from the `+EPSILON`/`-EPSILON` probe and `(vq, vr)` from the
      opposite one. */
  datatype Probes = Probes(uq: int, ur: int, vq: int, vr: int)

  /** The float interpolation of `line`, left uninterpreted: the probes of step
      `i` of the line from `a` to `b`. */
  type Interpolation = (Hex, Hex, nat) -> Probes

  predicate ProbesAgree(p: Probes)
  {
    p.uq == p.vq && p.ur == p.vr
  }

  /** The cells a step covers. */
  function StepCells(step: Path): seq<Hex>
  {
    match step
    case One(a) => [a]
    case Alt(a, b) => [a, b]
  }

  function ToStep(p: Probes): Path
  {
    var u := Cube(p.uq, p.ur);
    var v := Cube(p.vq, p.vr);
    if u == v then One(u) else Alt(u, v)
  }

  /** `line(a, b)`: one step per subdivision `0..=len(a - b)`. */
  function Line(a: Hex, b: Hex, probe: Interpolation): (steps: seq<Path>)
    ensures |steps| == Len(Sub(a, b)) + 1
    ensures forall i :: 0 <= i < |steps| ==> (steps[i].One? <==> ProbesAgree(probe(a, b, i)))
    ensures forall i :: 0 <= i < |steps| && steps[i].Alt? ==> steps[i].first != steps[i].second
    ensures forall i, x :: 0 <= i < |steps| && x in StepCells(steps[i]) ==> Valid(x)
  {
    seq(Len(Sub(a, b)) + 1, i requires 0 <= i => ToStep(probe(a, b, i)))
  }

  /** Each step's cells are the rounded probes: a `One` step is the cell of
      the `u` probe, and an `Alt` step holds the `u` cell first and the `v`
      cell second. */
  lemma LineCells(a: Hex, b: Hex, probe: Interpolation, i: int)
    requires 0 <= i < |Line(a, b, probe)|
    ensures var p := probe(a, b, i);
      Line(a, b, probe)[i].One? ==> Line(a, b, probe)[i].cell == Cube(p.uq, p.ur)
    ensures var p := probe(a, b, i);
      Line(a, b, probe)[i].Alt? ==>
        Line(a, b, probe)[i].first == Cube(p.uq, p.ur) && Line(a, b, probe)[i].second == Cube(p.vq, p.vr)
  {
  }

  /** A line from a cell to itself has a single step. */
  lemma LineToSelf(a: Hex, probe: Interpolation)
    ensures |Line(a, a, probe)| == 1
  {
  }

  // The interpolation over exact reals, nudged by EPSILON = 1e-6.

  const Epsilon: real := 0.000001

  function Lerp(a: real, b: real, t: real): real
  {
    a + (b - a) * t
  }

  /** One coordinate of one probe: `lerp(x0 + e, x1 + e, t).round()`. */
  function Nudged(x0: int, x1: int, e: real, t: real): int
  {
    RoundHalfAway(Lerp(x0 as real + e, x1 as real + e, t))
  }

  /** The interpolation `line` computes, with exact real arithmetic in place of
      `f32`: step `i` of `n` is at `t = i / max(n, 1)`. The nudged probes land
      on `a` at the first step and on `b` at the last. */
  function ExactProbe(a: Hex, b: Hex, i: nat): (p: Probes)
    ensures i == 0 ==> p == Probes(a.q, a.r, a.q, a.r)
    ensures 0 < i == Len(Sub(a, b)) ==> p == Probes(b.q, b.r, b.q, b.r)
  {
    var t := i as real / Max(Len(Sub(a, b)), 1) as real;
    NudgedEnds(a.q, b.q, Epsilon);
    NudgedEnds(a.q, b.q, -Epsilon);
    NudgedEnds(a.r, b.r, Epsilon);
    NudgedEnds(a.r, b.r, -Epsilon);
    LastStepAtEnd(i);
    Probes(Nudged(a.q, b.q, Epsilon, t), Nudged(a.r, b.r, -Epsilon, t),
           Nudged(a.q, b.q, -Epsilon, t), Nudged(a.r, b.r, Epsilon, t))
  }

  /** A nudge far below one half rounds away at either end of the interpolation. */
  lemma NudgedEnds(x0: int, x1: int, e: real)
    requires e == Epsilon || e == -Epsilon
    ensures Nudged(x0, x1, e, 0.0) == x0
    ensures Nudged(x0, x1, e, 1.0) == x1
  {
    assert Lerp(x0 as real + e, x1 as real + e, 0.0) == x0 as real + e;
    assert Lerp(x0 as real + e, x1 as real + e, 1.0) == x1 as real + e;
  }

  /** The interpolation at the last step of a line is exactly at its end. */
  lemma LastStepAtEnd(n: nat)
    ensures n as real / Max(n, 1) as real == if n == 0 then 0.0 else 1.0
  {
  }

  /** With exact interpolation a line starts with `One(a)` and ends with `One(b)`. */
  lemma ExactLineEndpoints(a: Hex, b: Hex)
    requires Valid(a) && Valid(b)
    ensures Line(a, b, ExactProbe)[0] == One(a)
    ensures Line(a, b, ExactProbe)[Len(Sub(a, b))] == One(b)
  {
    var n := Len(Sub(a, b));
    NudgedEnds(a.q, b.q, Epsilon);
    NudgedEnds(a.q, b.q, -Epsilon);
    NudgedEnds(a.r, b.r, Epsilon);
    NudgedEnds(a.r, b.r, -Epsilon);
    assert ExactProbe(a, b, 0) == Probes(a.q, a.r, a.q, a.r);
    LastStepAtEnd(n);
    if n == 0 {
      assert a == b;
    }
    assert ExactProbe(a, b, n) == Probes(b.q, b.r, b.q, b.r);
  }

  /** A line that crosses a cell edge: halfway from the origin to `(1, 1, -2)`
      the interpolation lies on the edge between `(1, 0, -1)` and `(0, 1, -1)`,
      and the two nudges resolve to those two cells. */
  lemma ExactLineDiagonal()
    ensures Line(Hex(0, 0, 0), Hex(1, 1, -2), ExactProbe)[1] == Alt(Hex(1, 0, -1), Hex(0, 1, -1))
  {
    var a, b := Hex(0, 0, 0), Hex(1, 1, -2);
    assert Len(Sub(a, b)) == 2;
    assert ExactProbe(a, b, 1) == Probes(1, 0, 0, 1);
  }
}

=== FILE: hex_view.dfy ===
/** Integer hex-to-pixel projection and cube rounding, after src/hex/view.rs.
    `from_pixel` needs `sqrt(3)` and is not modelled; `round`, which it ends
    with, is modelled over exact reals. */
module HexView {
  import opened IntMath
  import opened HexGrid

  datatype Orientation = Flat | Pointy

  /** `HexView`: a layout and the tile size in pixels. */
  datatype View = View(layout: Orientation, tileWidth: int, tileHeight: int)

  /** `IVec2`. */
  datatype Pixel = Pixel(x: int, y: int)

  function PixelAdd(a: Pixel, b: Pixel): Pixel
  {
    Pixel(a.x + b.x, a.y + b.y)
  }

  /** The horizontal step `w` that `to_pixel` derives from the tile size, with
      Rust's truncating `i32` division. */
  function StepW(v: View): int
  {
    match v.layout
    case Flat => Quot(v.tileWidth * 3, 4)
    case Pointy => Quot(v.tileWidth, 2)
  }

  /** The vertical step `h` that `to_pixel` derives from the tile size. */
  function StepH(v: View): int
  {
    match v.layout
    case Flat => Quot(v.tileHeight, 2)
    case Pointy => Quot(v.tileHeight * 3, 4)
  }

  /** `HexView::to_pixel`. Only `q` and `r` are read; for a valid cube
      coordinate the doubled axis is the difference of the other two, so the
      flat layout's row is `h * (r - s)` and the pointy layout's column is
      `w * (q - s)`. */
  function ToPixel(v: View, h: Hex): (p: Pixel)
    ensures v.layout == Flat ==> p.x == StepW(v) * h.q
    ensures v.layout == Pointy ==> p.y == StepH(v) * h.r
    ensures Valid(h) && v.layout == Flat ==> p.y == StepH(v) * (h.r - h.s)
    ensures Valid(h) && v.layout == Pointy ==> p.x == StepW(v) * (h.q - h.s)
  {
    match v.layout
    case Flat => Pixel(StepW(v) * h.q, StepH(v) * (h.r + h.r + h.q))
    case Pointy => Pixel(StepW(v) * (h.q + h.q + h.r), StepH(v) * h.r)
  }

  /** The origin cell is drawn at pixel offset zero in both layouts. */
  lemma ToPixelOrigin(v: View)
    ensures ToPixel(v, Origin) == Pixel(0, 0)
  {
  }

  lemma Distrib(k: int, x: int, y: int)
    ensures k * (x + y) == k * x + k * y
  {
  }

  /** The projection is linear: it maps hex sums to pixel sums. */
  lemma ToPixelAdditive(v: View, a: Hex, b: Hex)
    ensures ToPixel(v, Add(a, b)) == PixelAdd(ToPixel(v, a), ToPixel(v, b))
  {
    var w, h := StepW(v), StepH(v);
    if v.layout == Flat {
      Distrib(w, a.q, b.q);
      Distrib(h, a.r + a.r + a.q, b.r + b.r + b.q);
    } else {
      Distrib(w, a.q + a.q + a.r, b.q + b.q + b.r);
      Distrib(h, a.r, b.r);
    }
  }

  /** In the flat layout the column `x` depends only on `q`; in the pointy
      layout the row `y` depends only on `r`. Neither layout reads `s`. */
  lemma ToPixelAxes(v: View, a: Hex, b: Hex)
    ensures v.layout == Flat && a.q == b.q ==> ToPixel(v, a).x == ToPixel(v, b).x
    ensures v.layout == Pointy && a.r == b.r ==> ToPixel(v, a).y == ToPixel(v, b).y
    ensures a.q == b.q && a.r == b.r ==> ToPixel(v, a) == ToPixel(v, b)
  {
  }

  lemma MulNonzero(k: int, d: int)
    ensures k != 0 && d != 0 ==> k * d != 0
  {
  }

  lemma MulCancel(k: int, x: int, y: int)
    requires k != 0 && k * x == k * y
    ensures x == y
  {
    MulNonzero(k, x - y);
    Distrib(k, x, -y);
  }

  /** With nonzero steps, distinct valid hexes are drawn at distinct pixels. */
  lemma ToPixelInjective(v: View, a: Hex, b: Hex)
    requires StepW(v) != 0 && StepH(v) != 0
    requires Valid(a) && Valid(b)
    requires ToPixel(v, a) == ToPixel(v, b)
    ensures a == b
  {
    var w, h := StepW(v), StepH(v);
    if v.layout == Flat {
      MulCancel(w, a.q, b.q);
      MulCancel(h, a.r + a.r + a.q, b.r + b.r + b.q);
    } else {
      MulCancel(h, a.r, b.r);
      MulCancel(w, a.q + a.q + a.r, b.q + b.q + b.r);
    }
  }

  /** Truncating division matters for negative tile sizes: a width of -5 gives
      a flat step of -3, where Euclidean division (`(-5 * 3) / 4` in Dafny)
      would give -4. */
  lemma StepTruncates()
    ensures StepW(View(Flat, -5, 0)) == -3
  {
  }

  // ---------------------------------------------------------------------------
  // Cube rounding

  function RAbs(x: real): real
  {
    if x < 0.0 then -x else x
  }

  /** `round(q, r)`: rounds the three cube coordinates, then recomputes the one
      with the strictly largest rounding error from the other two (falling
      through to `r`, then `s`). */
  function Round(q: real, r: real): (h: Hex)
    ensures Valid(h)
    ensures RAbs(h.q as real - q) <= 1.0
    ensures RAbs(h.r as real - r) <= 1.0
    ensures RAbs(h.s as real - (-q - r)) <= 1.0
    ensures (h.q == RoundHalfAway(q) && h.r == RoundHalfAway(r))
         || (h.q == RoundHalfAway(q) && h.s == RoundHalfAway(-q - r))
         || (h.r == RoundHalfAway(r) && h.s == RoundHalfAway(-q - r))
  {
    var s := -q - r;
    var qi, ri, si := RoundHalfAway(q), RoundHalfAway(r), RoundHalfAway(s);
    var qd, rd, sd := RAbs(qi as real - q), RAbs(ri as real - r), RAbs(si as real - s);
    if qd > rd && qd > sd then Hex(-ri - si, ri, si)
    else if rd > sd then Hex(qi, -qi - si, si)
    else Hex(qi, ri, -qi - ri)
  }

  /** The axis `round` recomputes is the one with the strictly largest rounding
      error; ties fall through to `r`, then to `s`. The other two axes keep
      their rounded values. */
  lemma RoundAxisChoice(q: real, r: real)
    ensures var s := -q - r;
      var qd := RAbs(RoundHalfAway(q) as real - q);
      var rd := RAbs(RoundHalfAway(r) as real - r);
      var sd := RAbs(RoundHalfAway(s) as real - s);
      var h := Round(q, r);
      && (qd > rd && qd > sd ==> h.r == RoundHalfAway(r) && h.s == RoundHalfAway(s))
      && (!(qd > rd && qd > sd) && rd > sd ==> h.q == RoundHalfAway(q) && h.s == RoundHalfAway(s))
      && (!(qd > rd && qd > sd) && !(rd > sd) ==> h.q == RoundHalfAway(q) && h.r == RoundHalfAway(r))
  {
  }

  /** Rounding integral coordinates returns that hex. */
  lemma RoundIntegralHex(q: int, r: int)
    ensures Round(q as real, r as real) == Cube(q, r)
  {
    RoundIntegral(q);
    RoundIntegral(r);
    RoundIntegral(-q - r);
    assert (-q - r) as real == -(q as real) - r as real;
  }
}

=== FILE: int_math.dfy ===
/** Rust's `/` on `i32` truncates toward zero, whereas Dafny's `/` on `int`
    is Euclidean. `Quot` is the truncating quotient the source computes. */
module IntMath {

  function Abs(x: int): nat
  {
    if x < 0 then -x else x
  }

  function Max(a: int, b: int): int
  {
    if a >= b then a else b
  }

  /** Truncating division, as `a / b` on Rust integers. */
  function Quot(a: int, b: int): (r: int)
    requires b > 0
    ensures a >= 0 ==> 0 <= a - r * b < b
    ensures a < 0 ==> -b < a - r * b <= 0
  {
    if a >= 0 then a / b else -((-a) / b)
  }

  /** Truncation is symmetric about zero: negating the dividend negates the quotient.
      Euclidean division does not have this property: `-3 / 2` is -2 there. */
  lemma QuotOdd(a: int, b: int)
    requires b > 0
    ensures Quot(-a, b) == -Quot(a, b)
  {
  }

  /** `f32::round` over exact reals: round to the nearest integer, halves away from zero. */
  function RoundHalfAway(x: real): (r: int)
    ensures -0.5 <= r as real - x <= 0.5
    ensures x >= 0.0 ==> r >= 0
    ensures x <= 0.0 ==> r <= 0
    ensures r as real - x == 0.5 ==> x > 0.0
    ensures x - r as real == 0.5 ==> x < 0.0
  {
    if x >= 0.0 then (x + 0.5).Floor else -((-x + 0.5).Floor)
  }

  /** Rounding an integer gives it back. */
  lemma RoundIntegral(n: int)
    ensures RoundHalfAway(n as real) == n
  {
  }

  /** Every exact half is rounded away from zero: `n + 0.5` goes up for
      `n >= 0` and down for `n < 0`. */
  lemma RoundHalves(n: int)
    ensures RoundHalfAway(n as real + 0.5) == if n >= 0 then n + 1 else n
    ensures RoundHalfAway(0.5) == 1 && RoundHalfAway(-0.5) == -1
    ensures RoundHalfAway(2.5) == 3 && RoundHalfAway(-2.5) == -3
  {
  }
}

=== FILE: math_util.dfy ===
/** The integer hashes and `clamp` of src/math.rs. `u32` arithmetic with
    `wrapping_*` operations is `bv32` arithmetic, which wraps modulo 2^32. */
module MathUtil {

  /** `hash_u32`: two xorshift-multiply rounds and a final xorshift. */
  function HashU32(x: bv32): (r: bv32)
    ensures x == 0 ==> r == 0
  {
    var v1 := x ^ (x >> 16);
    var v2 := v1 * 0x85eb_ca6b;
    var v3 := v2 ^ (v2 >> 13);
    var v4 := v3 * 0xc2b2_ae35;
    v4 ^ (v4 >> 16)
  }

  /** The last three steps of `hash2_u32`: given `h = hash_u32(x)`, wrap-add the
      golden-ratio constant and two shifts of `y` to `h`, then xor with `y`. */
  function Combine(h: bv32, y: bv32): (r: bv32)
    ensures r ^ y == h + 0x9e37_79b9 + (y << 6) + (y >> 2)
  {
    y ^ (h + 0x9e37_79b9 + (y << 6) + (y >> 2))
  }

  /** `hash2_u32`: the combine step applied to `hash_u32(x)`, so by
      `Combine`'s contract xoring the result with `y` gives back the wrapped
      sum of `hash_u32(x)`, the golden-ratio constant and two shifts of `y`.
      A zero `x` hashes to zero and contributes nothing. */
  function Hash2U32(x: bv32, y: bv32): (r: bv32)
    ensures r == Combine(HashU32(x), y)
    ensures x == 0 ==> r == Combine(0, y)
  {
    Combine(HashU32(x), y)
  }

  /** The hashes at a few inputs, with 32-bit wrap-around. */
  lemma HashValues()
    ensures HashU32(1) == 0x514e_28b7
    ensures HashU32(2) == 0x30f4_c306
    ensures Hash2U32(0, 0) == 0x9e37_79b9
    ensures Hash2U32(1, 2) == 0xef85_a2f2
  {
  }

  /** `clamp(x, a, b)`: `a` below the range, `b` above it, `x` otherwise. The
      lower bound is compared first, which decides the result when `a > b`. */
  function Clamp(x: real, a: real, b: real): (r: real)
    ensures x < a ==> r == a
    ensures a <= x && x > b ==> r == b
    ensures a <= b ==> a <= r <= b
    ensures a <= x <= b <==> r == x
  {
    if x < a then a else if x > b then b else x
  }

  /** Clamping twice to the same well-formed range is clamping once. */
  lemma ClampIdempotent(x: real, a: real, b: real)
    requires a <= b
    ensures Clamp(Clamp(x, a, b), a, b) == Clamp(x, a, b)
  {
  }

  /** Clamping is monotone in `x`. */
  lemma ClampMonotone(x: real, y: real, a: real, b: real)
    requires a <= b && x <= y
    ensures Clamp(x, a, b) <= Clamp(y, a, b)
  {
  }

  /** With an inverted range, every input below `a` gives `a` and every other
      input gives `b`. */
  lemma ClampInverted(x: real, a: real, b: real)
    requires a > b
    ensures Clamp(x, a, b) == (if x < a then a else b)
  {
  }
}

=== FILE: positions.dfy ===
/** `Positions` of src/component/positions.rs: a position component per
    entity plus a reverse index from each cell to the set of entities there.
    The reverse index is kept by hand, so the two halves agree only because
    `set` and `del` update both; `Consistent` states that agreement. */
module PositionIndex {
  import opened Wrappers
  import opened Entities
  import opened HexGrid
  import CS = ComponentStore

  datatype Positions = Positions(components: CS.Components<Hex>, byHex: map<Hex, set<EntityId>>)

  /** The two halves agree: an entity is in a cell's set exactly when its
      position component is that cell. */
  ghost predicate Consistent(p: Positions)
  {
    && CS.Sized(p.components)
    && (forall h, e :: h in p.byHex && e in p.byHex[h] ==> InRange(e) && CS.Get(p.components, e) == Some(h))
    && (forall e: EntityId :: InRange(e) && CS.Get(p.components, e).Some? ==>
          CS.Get(p.components, e).value in p.byHex && e in p.byHex[CS.Get(p.components, e).value])
  }

  /** `Positions::new` (in src/main.rs): no components and an empty index. */
  function New(): (p: Positions)
    ensures Consistent(p)
    ensures forall e: EntityId :: InRange(e) ==> !Has(p, e)
  {
    Positions(CS.New(), map[])
  }

  /** `Positions::at`: the set kept for a cell, if the cell was ever occupied.
      With a consistent index the set holds exactly the entities whose
      position is that cell, and a cell without a set holds no entity. */
  function At(p: Positions, h: Hex): (r: Option<set<EntityId>>)
    ensures r.Some? <==> h in p.byHex
    ensures Consistent(p) && r.Some? ==>
      forall x: EntityId :: x in r.value <==> InRange(x) && CS.Get(p.components, x) == Some(h)
    ensures Consistent(p) && r.None? ==>
      forall x: EntityId :: InRange(x) ==> CS.Get(p.components, x) != Some(h)
  {
    if h in p.byHex then Some(p.byHex[h]) else None
  }

  /** `Positions::has`. */
  function Has(p: Positions, e: EntityId): (b: bool)
    requires CS.Sized(p.components) && InRange(e)
    ensures b <==> Get(p, e).Some?
  {
    CS.Has(p.components, e)
  }

  /** `Positions::get`. With a consistent index an entity is at a cell exactly
      when the cell's set lists it. */
  function Get(p: Positions, e: EntityId): (r: Option<Hex>)
    requires CS.Sized(p.components) && InRange(e)
    ensures Consistent(p) ==> forall h :: r == Some(h) <==> h in p.byHex && e in p.byHex[h]
  {
    CS.Get(p.components, e)
  }

  /** The index after removing `e` from the set of the cell it was in, when it
      had a position and that cell has a set. */
  function Vacate(p: Positions, e: EntityId): (m: map<Hex, set<EntityId>>)
    requires CS.Sized(p.components) && InRange(e)
    ensures m.Keys == p.byHex.Keys
    ensures forall h :: h in m ==> m[h] == (if Get(p, e) == Some(h) then p.byHex[h] - {e} else p.byHex[h])
  {
    match Get(p, e)
    case Some(previous) =>
      if previous in p.byHex then p.byHex[previous := p.byHex[previous] - {e}] else p.byHex
    case None => p.byHex
  }

  /** `Positions::set`: take `e` out of its previous cell's set, record the new
      position, then add `e` to the new cell's set, creating it if needed. */
  function Set(p: Positions, e: EntityId, h: Hex): (r: Positions)
    requires CS.Sized(p.components) && InRange(e)
    ensures CS.Sized(r.components)
    ensures Get(r, e) == Some(h)
    ensures At(r, h).Some? && e in At(r, h).value
    ensures forall c :: c != h && Get(p, e) == Some(c) && c in p.byHex ==> c in r.byHex && e !in r.byHex[c]
    ensures forall o: EntityId :: InRange(o) && o != e ==> Get(r, o) == Get(p, o)
    ensures forall c, o :: c in p.byHex && o != e ==> c in r.byHex && (o in r.byHex[c] <==> o in p.byHex[c])
    ensures r.byHex.Keys == p.byHex.Keys + {h}
    ensures Consistent(p) ==> Consistent(r)
  {
    var vacated := Vacate(p, e);
    var components := CS.Set(p.components, e, h);
    var byHex := if h in vacated then vacated[h := vacated[h] + {e}] else vacated[h := {e}];
    Positions(components, byHex)
  }

  /** `Positions::del`: take `e` out of its cell's set and clear its position.
      The cell keeps its (possibly now empty) set. */
  function Del(p: Positions, e: EntityId): (r: Positions)
    requires CS.Sized(p.components) && InRange(e)
    ensures CS.Sized(r.components)
    ensures !Has(r, e)
    ensures forall c :: Get(p, e) == Some(c) && c in p.byHex ==> c in r.byHex && e !in r.byHex[c]
    ensures forall o: EntityId :: InRange(o) && o != e ==> Get(r, o) == Get(p, o)
    ensures forall c, o :: c in p.byHex && o != e ==> c in r.byHex && (o in r.byHex[c] <==> o in p.byHex[c])
    ensures r.byHex.Keys == p.byHex.Keys
    ensures Consistent(p) ==> Consistent(r)
    ensures Consistent(p) ==> forall c :: c in r.byHex ==> e !in r.byHex[c]
  {
    Positions(CS.Del(p.components, e), Vacate(p, e))
  }

  /** With the halves in agreement, membership in a cell's set is exactly
      "positioned at that cell". */
  lemma AtIffGet(p: Positions, e: EntityId, h: Hex)
    requires Consistent(p) && InRange(e)
    ensures (At(p, h).Some? && e in At(p, h).value) <==> Get(p, e) == Some(h)
  {
  }

  /** Moving an entity out of a cell it occupied alone leaves that cell with an
      empty set rather than no set: `at` then answers `Some` of the empty set. */
  lemma VacatedCellStaysEmpty(p: Positions, e: EntityId, c: Hex, h: Hex)
    requires Consistent(p) && InRange(e)
    requires Get(p, e) == Some(c) && c != h
    requires forall o: EntityId :: InRange(o) && o != e ==> Get(p, o) != Some(c)
    ensures At(Set(p, e, h), c) == Some({})
  {
    var r := Set(p, e, h);
    assert c in p.byHex && r.byHex[c] == p.byHex[c] - {e};
    forall o | o in p.byHex[c]
      ensures o == e
    {
      assert InRange(o) && Get(p, o) == Some(c);
    }
    assert p.byHex[c] - {e} == {};
  }

  /** Repeating `set` with the same cell changes nothing more. */
  lemma SetIdempotent(p: Positions, e: EntityId, h: Hex)
    requires CS.Sized(p.components) && InRange(e)
    ensures Set(Set(p, e, h), e, h) == Set(p, e, h)
  {
    var r1 := Set(p, e, h);
    var r2 := Set(r1, e, h);
    CS.SetDelNoChange(r1.components, e, h);
    assert r2.byHex[h] == r1.byHex[h];
    assert r2.byHex == r1.byHex;
  }

  /** Deleting an entity that has no position changes nothing. */
  lemma DelAbsent(p: Positions, e: EntityId)
    requires CS.Sized(p.components) && InRange(e)
    requires !Has(p, e)
    ensures Del(p, e) == p
  {
    CS.SetDelNoChange(p.components, e, Origin);
  }

  /** Several entities may share a cell: placing two distinct entities on the
      same cell leaves both in its set. */
  lemma SharedCell(p: Positions, a: EntityId, b: EntityId, h: Hex)
    requires CS.Sized(p.components) && InRange(a) && InRange(b) && a != b
    ensures var r := Set(Set(p, a, h), b, h);
      At(r, h).Some? && a in At(r, h).value && b in At(r, h).value
  {
  }
}

=== FILE: sprite_anchor.dfy ===
/** The sprite pivot anchors of src/sprite/anchor.rs: a second copy of the
    anchor types with a free function `anchor_offset` returning a pair. */
module SpriteAnchor {
  import opened IntMath
  import A = Anchors

  datatype Horizontal = Left | Middle | Right

  datatype Vertical = Top | Center | Bottom

  datatype Anchor = Anchor(h: Horizontal, v: Vertical)

  const LEFT_TOP: Anchor := Anchor(Left, Top)
  const MIDDLE_TOP: Anchor := Anchor(Middle, Top)
  const RIGHT_TOP: Anchor := Anchor(Right, Top)
  const LEFT_CENTER: Anchor := Anchor(Left, Center)
  const MIDDLE_CENTER: Anchor := Anchor(Middle, Center)
  const RIGHT_CENTER: Anchor := Anchor(Right, Center)
  const LEFT_BOTTOM: Anchor := Anchor(Left, Bottom)
  const MIDDLE_BOTTOM: Anchor := Anchor(Middle, Bottom)
  const RIGHT_BOTTOM: Anchor := Anchor(Right, Bottom)

  /** `anchor_offset`: 0, the size, or the half of the size truncated toward
      zero, per axis. */
  function AnchorOffset(anchor: Anchor, w: int, h: int): (p: (int, int))
    ensures anchor.h == Left ==> p.0 == 0
    ensures anchor.h == Right ==> p.0 == w
    ensures anchor.h == Middle ==> (w >= 0 ==> 0 <= w - 2 * p.0 <= 1) && (w < 0 ==> -1 <= w - 2 * p.0 <= 0)
    ensures anchor.v == Top ==> p.1 == 0
    ensures anchor.v == Bottom ==> p.1 == h
    ensures anchor.v == Center ==> (h >= 0 ==> 0 <= h - 2 * p.1 <= 1) && (h < 0 ==> -1 <= h - 2 * p.1 <= 0)
  {
    var x := match anchor.h
      case Left => 0
      case Middle => Quot(w, 2)
      case Right => w;
    var y := match anchor.v
      case Top => 0
      case Center => Quot(h, 2)
      case Bottom => h;
    (x, y)
  }

  /** The same variant of the screen-anchor type. */
  function ToScreenAnchor(a: Anchor): A.Anchor
  {
    var h := match a.h
      case Left => A.Left
      case Middle => A.Middle
      case Right => A.Right;
    var v := match a.v
      case Top => A.Top
      case Center => A.Center
      case Bottom => A.Bottom;
    A.Anchor(h, v)
  }

  /** Both copies compute the same offset for every variant, and the nine
      named constants correspond. */
  lemma AgreesWithScreenAnchor(a: Anchor, w: int, h: int)
    ensures var p := A.Offset(ToScreenAnchor(a), w, h);
      AnchorOffset(a, w, h) == (p.x, p.y)
    ensures ToScreenAnchor(LEFT_TOP) == A.LEFT_TOP && ToScreenAnchor(MIDDLE_TOP) == A.MIDDLE_TOP
    ensures ToScreenAnchor(RIGHT_TOP) == A.RIGHT_TOP && ToScreenAnchor(LEFT_CENTER) == A.LEFT_CENTER
    ensures ToScreenAnchor(MIDDLE_CENTER) == A.MIDDLE_CENTER && ToScreenAnchor(RIGHT_CENTER) == A.RIGHT_CENTER
    ensures ToScreenAnchor(LEFT_BOTTOM) == A.LEFT_BOTTOM && ToScreenAnchor(MIDDLE_BOTTOM) == A.MIDDLE_BOTTOM
    ensures ToScreenAnchor(RIGHT_BOTTOM) == A.RIGHT_BOTTOM
  {
  }

  /** `Sprite::new` takes the pivot of the negated, scaled size. Because the
      halves truncate, that is exactly the negation of the pivot of the
      size itself. */
  lemma NegatedPivot(anchor: Anchor, w: int, h: int, scale: int)
    ensures var p := AnchorOffset(anchor, w * scale, h * scale);
      AnchorOffset(anchor, -w * scale, -h * scale) == (-p.0, -p.1)
  {
    assert -w * scale == -(w * scale) && -h * scale == -(h * scale);
    QuotOdd(w * scale, 2);
    QuotOdd(h * scale, 2);
  }
}

=== FILE: wrappers.dfy ===
/** Option and Result, the error-carrying values used throughout the model. */
module Wrappers {

  datatype Option<+T> = None | Some(value: T)

  datatype Result<+R, +E> = Success(value: R) | Failure(error: E)
}
